=== FILE: README.md ===
# VPP test interface identity, in Dafny

A model of the generic interface object of VPP's Python test framework
(`test/vpp_interface.py`). An interface has a small integer index assigned by VPP.
From that index the test framework derives:

- the addresses of the interface itself: 172.16.index.1 and fd01:index::1;
- a list of simulated remote hosts, whose MAC, IPv4 and IPv6 texts follow fixed
  printf formats over (index, ordinal), with ordinals starting at 2;
- three lookup dictionaries from each address text to its host.

It then reconciles the object with the interface dump VPP returns. This takes the
name, cut at the first NUL, and the local MAC text of the first entry with the same
index.

The configuration methods send one control-plane request built from these values.
The neighbor-binding method sends one request per remote host.

The model is functional. An interface is an immutable record (`VppInterface.Interface`).
Operations return a new record, the requests they would send, or an error value.
Python's string formatting, `split`, `join`, `replace`, clamped slicing,
`encode('hex')`, `decode('hex')` and `socket.inet_pton` are defined in Dafny
(modules `Seqs`, `Text`, `Inet`), so the proofs reach down to the characters.

Modules, in dependency order:

| module | file | contents |
|---|---|---|
| Wrappers | wrappers.dfy | `Option`, `Result` |
| Seqs | seqs.dfy | join, split, replace, flatten, clamped slice |
| Text | text.dfy | `%0wx`, `%u`, hex encode/decode, with their round trips |
| Inet | inet.dfy | inet_pton for dotted-quad IPv4 and for eight-group or interior-"::" IPv6 |
| Identity | identity.dfy | the address derivations and their binary forms |
| Vapi | vapi.dfy | dump entries and control-plane requests as data |
| Errors | errors.dfy | the exceptions the code raises, as values |
| HostIndex | host_index.dfy | host list, dictionaries, `generate_remote_hosts`, `host_by_*` |
| Discovery | discovery.dfy | the dump reconciliation of `post_init_setup` |
| VppInterface | interface.dfy | `post_init_setup`, accessors, regeneration, setter, sub-interfaces |
| Config | config.dfy | the configuration methods |

A constructed interface satisfies `VppInterface.Valid`, which has three parts:

- `LocalIdentity`: the index is at most 255, and the local addresses and their binary
  forms are the derived ones.
- `HostsDerived`: the hosts are the derived ones, and all three dictionaries index them
  exactly.
- `FromDump`: the name, MAC and dump come from a dump entry for the index.

The accessors and configuration methods state their results under the part they read.
Replacing the host list keeps `LocalIdentity`, so the local-address facts survive the
setter.

### Notes on the code

- A lookup miss raises a plain `KeyError(key)`, modelled as `KeyError(key)`. The error
  does not name the address kind.
- When reconciliation finds no entry, the code raises a generic exception whose message
  names the index and the dump. It is modelled as `InterfaceNotFound(index, dump)`.
- Nothing checks the index explicitly. `inet_pton` of "172.16.index.1" at line 125
  rejects an index above 255, before the dump is read. `PostInitSetup` returns
  `AddressError` there.
- The `remote_hosts` setter does not rebuild the dictionaries; a TODO at line 92 says so
  (see Findings).
- `local_ip4n` and `local_ip6n` convert the text again on every read. `config_ip6` instead
  uses the value stored at construction. With the derived local addresses the two agree
  (`VppInterface.LocalIp6n`, `Config.ConfigIp6`).

## Model

| member | source | states |
|---|---|---|
| Text.FormatHexValue | test/vpp_interface.py:110-112 | `%0wx` writes only hex digits, at least w of them and at least one, and they read back as the number |
| Text.FormatHexInjective | test/vpp_interface.py:110-112 | distinct numbers print differently under `%0wx`, so distinct ordinals give distinct MAC and IPv6 fields |
| Text.ToBaseLength | test/vpp_interface.py:110 | a number has at most w hex digits exactly when it is below 16^w |
| Text.FormatHexExactWidth | test/vpp_interface.py:110-112 | below 16^w the field is exactly w digits wide |
| Text.FormatHexOverflows | test/vpp_interface.py:110 | from 16^w up the field is wider than w, so a two-digit MAC field overflows at 256 |
| Text.FormatDecValue | test/vpp_interface.py:111 | `%u` writes decimal digits that read back as the number |
| Text.FormatDecInjective | test/vpp_interface.py:111 | distinct numbers print differently under `%u` |
| Text.FormatHexByte | test/vpp_interface.py:110 | `%02x` of a byte is the two-digit pair that hex encoding writes for it |
| Text.HexDecodeEncode | test/vpp_interface.py:161 | hex decoding undoes hex encoding for every byte string |
| Text.HexByteDecodes | test/vpp_interface.py:161 | the two hex digits written for a byte are hex digits whose values give back the byte |
| Text.HexDecodeLength | test/vpp_interface.py:161 | a string that hex-decodes has exactly two characters per byte, so an odd length is rejected |
| Text.HexEncodePrefix | test/vpp_interface.py:134-135 | the first 2m hex characters are the encoding of the first m bytes |
| Seqs.Split | test/vpp_interface.py:133 | split gives at least one part, no part holds the separator, and joining the parts gives back the input |
| Seqs.SplitJoin | test/vpp_interface.py:124-125 | split undoes join when no part holds the separator |
| Seqs.RemoveAllJoin | test/vpp_interface.py:161 | deleting the separators from a joined text leaves the parts run together |
| Seqs.FlattenPairSlices | test/vpp_interface.py:134-135 | the clamped slices [0:2], [2:4], … run together are a prefix of the text of length min(2n, len) |
| Inet.ParseFormatIp4 | test/vpp_interface.py:124-125 | inet_pton reads every dotted-decimal text of four bytes back as those bytes |
| Inet.ParseIp4Canonical | test/vpp_interface.py:124-125 | any text inet_pton accepts as IPv4 is the dotted-decimal text of its result |
| Inet.GroupsToBytes | test/vpp_interface.py:127-128 | a run of IPv6 fields converts exactly when each is one to four hex digits, two network-order bytes per group |
| Inet.ParseIp6Full | test/vpp_interface.py:127-128 | parser property behind the conversions at lines 127-128: eight `%04x` groups read back as the groups' bytes (the code itself writes only the "::" form) |
| Inet.ParseIp6Compressed | test/vpp_interface.py:127-128 | a:b::c reads back as a, b, five zero groups, c |
| Inet.ParseIp6CompressedRejects | test/vpp_interface.py:127-128 | in a:b::c a field that is not a group (five digits) makes the conversion fail |
| Identity.HostAddressesDistinct | test/vpp_interface.py:109-112 | two ordinals give different MAC, IPv4 and IPv6 texts for any index |
| Identity.DerivedHostsUnique | test/vpp_interface.py:109-112 | the generated hosts have pairwise distinct MAC, IPv4 and IPv6 texts |
| Identity.LocalIp4IsOrdinalOne | test/vpp_interface.py:109 | the local IPv4 text is the host text for ordinal 1, the slot the comment reserves for VPP |
| Identity.LocalNotRemote | test/vpp_interface.py:109 | no remote ordinal (2 or more) yields the local IPv4 or IPv6 text |
| Identity.FormatDecOctet | test/vpp_interface.py:111 | a `%u` field is a valid inet_pton octet exactly when the number is at most 255 |
| Identity.HostIp4Binary | test/vpp_interface.py:44-47 | a host's IPv4 text converts to 172.16.index.ordinal when both are at most 255, and fails otherwise |
| Identity.LocalIp4Binary | test/vpp_interface.py:124-125 | the local IPv4 text converts to 172.16.index.1 when the index is at most 255, and fails otherwise |
| Identity.HostIp6Binary | test/vpp_interface.py:64-67 | a host's IPv6 text converts to fd01:index::ordinal when both are below 65536, and fails otherwise |
| Identity.LocalIp6Binary | test/vpp_interface.py:127-128 | the local IPv6 text converts to fd01:index::1 when the index is below 65536, and fails otherwise |
| Identity.MacTextRoundTrip | test/vpp_interface.py:134-135 | deleting the colons of a six-byte MAC text and hex-decoding gives back the six bytes |
| Identity.HostMacBinary | test/vpp_interface.py:160-161 | a host MAC with index and ordinal at most 255 decodes to the bytes 02 index 00 00 ff ordinal |
| Identity.HostMacOverflow | test/vpp_interface.py:160-161 | for an index at most 255 and ordinals 256 to 4095, the host MAC has 13 hex characters once the colons are removed, so decoding fails |
| Identity.DerivationExample | test/vpp_interface.py:109-112 | index 3, ordinal 2 gives 02:03:00:00:ff:02, 172.16.3.2 and fd01:0003::0002, with local 172.16.3.1 |
| HostIndex.BuildIndex | test/vpp_interface.py:115-117 | the dictionary built by assigning each host under its key has exactly the hosts' keys |
| HostIndex.BuildIndexExact | test/vpp_interface.py:115-117 | built from hosts with distinct keys, the dictionary maps each host's key back to that host and has no other keys |
| HostIndex.IndexesNeedUniqueKeys | test/vpp_interface.py:115-117 | a dictionary can index a host list exactly only if distinct hosts have distinct keys |
| HostIndex.GenerateRemoteHosts | test/vpp_interface.py:103-117 | the list is rebuilt from empty as the derived hosts for ordinals 2 .. count+1, and all three dictionaries index exactly that list |
| HostIndex.ConsistentTableDetermined | test/vpp_interface.py:103-117 | two consistent tables with the same host list are equal, so the dictionaries hold nothing but the list |
| HostIndex.HostBy | test/vpp_interface.py:94-101 | a lookup in a consistent table succeeds exactly when some listed host has that key and returns such a host; a miss raises KeyError with the key |
| HostIndex.LookupFindsHost | test/vpp_interface.py:94-101 | in a consistent table, looking up any listed host's address returns that host |
| Discovery.TrimAtNul | test/vpp_interface.py:133 | the name is a prefix of the dump name with no NUL, ending at the first NUL or at the end |
| Discovery.TrimAtFirstNul | test/vpp_interface.py:133 | with the first NUL at position k, the name is exactly the first k bytes |
| Discovery.RenderL2Address | test/vpp_interface.py:134-135 | with at least six address bytes, the local MAC is the colon-separated hex text of the first six |
| Discovery.L2AddressRoundTrip | test/vpp_interface.py:134-135 | the local MAC text decodes back to the first min(6, len) address bytes, so short addresses give shorter MACs |
| Discovery.FindInterface | test/vpp_interface.py:131-132 | the search returns the first dump position with the index, or nothing exactly when no entry has it |
| Discovery.Reconcile | test/vpp_interface.py:130-142 | succeeds exactly when some entry has the index, taking name, MAC and dump from the first such entry; otherwise the error names the index and the whole dump |
| Discovery.NameExample | test/vpp_interface.py:133 | the NUL-padded name "eth5" yields "eth5" |
| Discovery.MacExample | test/vpp_interface.py:134-135 | the address aa bb cc dd ee ff 00 00 yields "aa:bb:cc:dd:ee:ff" |
| VppInterface.PostInitSetup | test/vpp_interface.py:119-142 | an index above 255 fails in the IPv4 conversion; otherwise it succeeds exactly when the dump has the index, giving a valid interface with one remote host, built from the first matching entry |
| VppInterface.RemoteMac | test/vpp_interface.py:19-22 | fails with IndexError exactly when there are no hosts; when the hosts are the derived ones it is the MAC for ordinal 2 |
| VppInterface.RemoteIp4 | test/vpp_interface.py:39-42 | fails with IndexError exactly when there are no hosts; when the hosts are the derived ones it is 172.16.index.2 |
| VppInterface.RemoteIp6 | test/vpp_interface.py:59-62 | fails with IndexError exactly when there are no hosts; when the hosts are the derived ones it is fd01:index::2 in `%04x` form |
| VppInterface.RemoteIp4n | test/vpp_interface.py:44-47 | with no hosts, IndexError; otherwise it succeeds exactly when the first host's IPv4 text converts, the bytes print back as that text, and the only failure is an address error; with the derived hosts, the bytes 172.16.index.2 when the index is at most 255 |
| VppInterface.RemoteIp6n | test/vpp_interface.py:64-67 | with no hosts, IndexError; otherwise it succeeds exactly when the first host's IPv6 text converts, and the only failure is an address error; with the derived hosts, the bytes of fd01:index::2 when the index is below 65536 |
| VppInterface.LocalIp4n | test/vpp_interface.py:34-37 | succeeds exactly when `local_ip4` converts, any bytes returned print back as `local_ip4`, and the only failure is an address error; with the derived local addresses the conversion equals the stored bytes 172.16.index.1 |
| VppInterface.LocalIp6n | test/vpp_interface.py:54-57 | succeeds exactly when `local_ip6` parses, and the only failure is an address error; with the derived local addresses it equals the stored bytes of fd01:index::1 |
| VppInterface.RemotesAvoidLocal | test/vpp_interface.py:109 | no remote host of a constructed interface has the interface's own IPv4 or IPv6 text |
| VppInterface.Regenerate | test/vpp_interface.py:103-117 | the hosts become the derived ones for the new count with exact dictionaries; all other fields are kept, and the local-address facts and full validity are preserved |
| VppInterface.SetRemoteHostsAsWritten | test/vpp_interface.py:89-92 | the setter replaces the list and leaves every dictionary and every other field as it was, so the local-address facts still hold |
| VppInterface.SetterLeavesStaleIndex | test/vpp_interface.py:89-92 | after setting an empty list the table is inconsistent and a lookup still returns the old first host |
| VppInterface.SetRemoteHosts | test/vpp_interface.py:89-92 | corrected setter: the dictionaries hold exactly the new hosts' keys, the table is consistent when those keys are distinct, and the local-address facts still hold |
| VppInterface.AddSubIfAsWritten | test/vpp_interface.py:192-205 | the new sub-interface is always the last one registered; earlier ones survive only when a list was already stored, so registration gains one entry unless a single value was stored, which is lost |
| VppInterface.AsWrittenKeepsOnlyLast | test/vpp_interface.py:192-205 | registering several sub-interfaces one by one on a fresh interface keeps only the last |
| VppInterface.AddSubIf | test/vpp_interface.py:192-205 | corrected registration appends the sub-interface after the earlier ones, changes nothing else and preserves validity |
| VppInterface.RegisterAllKeepsAll | test/vpp_interface.py:192-205 | corrected registration, one by one, keeps every sub-interface in order |
| Config.ConfigIp4 | test/vpp_interface.py:151-156 | a 24-bit IPv4 address request for this interface, whose address's dotted text is `local_ip4`, failing only with an address error; with the derived local addresses it succeeds with 172.16.index.1 |
| Config.ConfigIp6 | test/vpp_interface.py:165-170 | a 64-bit IPv6 address request for this interface; with the derived local addresses the address is the conversion of `local_ip6`, fd01:index::1 |
| Config.SetTableIp4 | test/vpp_interface.py:172-176 | a request, for this interface, that decodes as an IPv4 table assignment with the given table |
| Config.SetTableIp6 | test/vpp_interface.py:178-182 | a request, for this interface, that decodes as an IPv6 table assignment with the given table |
| Config.DisableIpv6Ra | test/vpp_interface.py:184-186 | a request, for this interface, that decodes as RA suppression |
| Config.AdminUp | test/vpp_interface.py:188-190 | a request, for this interface, that decodes as admin-up |
| Config.EnableMpls | test/vpp_interface.py:207-210 | a request, for this interface, that decodes as MPLS enabling |
| Config.IssueDecodes | test/vpp_interface.py:151-210 | with the derived local addresses each of the seven single-request methods (all but `configure_extend_ipv4_mac_binding`) sends exactly one request, to this interface, and the request tells which method sent it |
| Config.Apply | test/vpp_interface.py:151-210 | one of the seven single-request methods called after earlier ones appends its request for this interface to the requests already sent, or raises (only `config_ip4`, with an address error) leaving them as they were |
| Config.ApplyAllInOrder | test/vpp_interface.py:151-210 | with the derived local addresses any sequence of calls to the seven single-request methods succeeds, keeps the earlier requests and adds one request per call, in call order, each telling which call sent it |
| Config.NeighborCallDerived | test/vpp_interface.py:160-163 | for a derived host whose index and ordinal are at most 255, the neighbor request binds MAC bytes 02 index 00 00 ff ordinal to 172.16.index.ordinal |
| Config.NeighborCallOverflow | test/vpp_interface.py:160-163 | for a derived host with index at most 255 and ordinal 256 to 4095, the MAC does not hex-decode and the request fails with the hex-decoding error before the IPv4 conversion |
| Config.BindAll | test/vpp_interface.py:158-163 | the loop sends, in host order, the requests of a prefix of the hosts; it fails exactly when that prefix is shorter, with the error of the first host left out |
| Config.BindAllSucceeds | test/vpp_interface.py:158-163 | when every host's request can be built, the loop does not fail |
| Config.BindAllStopsAt | test/vpp_interface.py:158-163 | when host k is the first whose request cannot be built, exactly k requests are sent and that host's error ends the loop |
| Config.ExtendIpv4MacBinding | test/vpp_interface.py:158-163 | the method sends, in host order, the neighbor requests of a prefix of `remote_hosts`, all for this interface; it stops exactly when a host's request cannot be built, with that host's error |
| Config.ExtendBindingComplete | test/vpp_interface.py:158-163 | with the derived hosts, an index at most 255 and at most 254 hosts, request k binds MAC 02:index:00:00:ff:k+2 to 172.16.index.k+2, and nothing fails |
| Config.ExtendBindingOverflow | test/vpp_interface.py:158-163 | with the derived hosts, an index at most 255 and 255 hosts or more, 254 requests are sent and the host with ordinal 256 stops the loop with a hex-decoding error |

## Left out

- src/vpp-api/vom/inspect.hpp is not part of this model. It declares an unrelated C++ inspection service.
- The control-plane transport is not modelled. A configuration method is modelled as the request it sends (`Vapi.Call`). VPP's replies and client-side errors are not modelled, because the code passes them through.
- `Vapi.Call` records only the arguments the code passes. The client's defaults (add rather than delete, `is_ipv6` 0 for `config_ip4`, enable for MPLS) are implied by the constructor.
- The dump is a parameter of `PostInitSetup` rather than a call to `sw_interface_dump`.
- `__init__` (lines 144-149), `__metaclass__ = ABCMeta`, the `test` back-reference and the log line are left out. They are an abstract constructor, a metaclass, an object reference and output.
- The getters that return a stored field unchanged (`sw_if_index`, `local_mac`, `local_ip4`, `local_ip6`, `name`, `dump`, `remote_hosts`) are the record's fields.
- Lists are values in the model. In Python the `remote_hosts` getter returns the interface's own list, and the setter stores the caller's list, so the list is shared with callers. An in-place change such as `intf.remote_hosts.append(h)`, or a caller changing a list it passed to the setter, changes the host list without touching the three dictionaries. This bypasses them just as the setter does (see Findings), but the immutable record cannot express the sharing.
- `Inet.ParseIp4` and `Inet.ParseIp6` accept only the address forms this code produces. IPv6 texts with a leading or trailing "::", or an embedded IPv4 part, are rejected. General inet_pton is not needed here.
- `util.Host` is not part of this model. Its `ip4n` is taken to be the inet_pton conversion of its `ip4`, performed when read.
- A sub-interface is represented by its index, not by an object reference.
- The docstrings of `set_table_ip4` and `set_table_ip6` ask callers to set the table before configuring addresses. The code does not check this, and the model does not either.
- When `post_init_setup` fails, the partly initialised Python object is discarded. The model returns only the error.
- The call trace of `Config.Apply` and `Config.ApplyAll` covers the seven single-request methods. `configure_extend_ipv4_mac_binding` sends one request per host and can raise part-way. Its requests and its stop are stated by `Config.ExtendIpv4MacBinding` and not threaded through the trace.
- `generate_remote_hosts` takes a count of type `nat`. In Python, `range(2, count + 2)` with a negative count is empty and behaves like count 0; the type excludes that case.
- Config.ConfigIp6: the request's content is stated only when the stored local addresses are the derived ones. Otherwise only the target interface is stated, because the stored bytes are then arbitrary.

## Findings

| source | as written | input that shows it | evidently intended | confidence | as-written member | corrected member |
|---|---|---|---|---|---|---|
| test/vpp_interface.py:89-92 | the `remote_hosts` setter replaces the list but keeps the three dictionaries (a TODO marks it) | construct interface 3, set `remote_hosts = []`, then look up MAC 02:03:00:00:ff:02: the old host is returned | rebuild the dictionaries from the new list, as `generate_remote_hosts` does | high, not executed | VppInterface.SetterLeavesStaleIndex | VppInterface.SetRemoteHosts |
| test/vpp_interface.py:192-205 | when `sub_if` holds a single value, a second `add_sub_if` overwrites it; a list is never created | `add_sub_if(a)` then `add_sub_if(b)` on a fresh interface leaves `sub_if == b` | collect every registered sub-interface in a list | medium, not executed | VppInterface.AsWrittenKeepsOnlyLast | VppInterface.RegisterAllKeepsAll |

=== FILE: config.dfy ===
/** The configuration methods of an interface: each sends control-plane requests
    built from the interface's index and addresses. A method is modelled as the
    requests it sends, in order, and the error that stops it, if any. */
module Config {
  import opened Wrappers
  import opened Text
  import opened Inet
  import opened Identity
  import opened HostIndex
  import opened Vapi
  import opened Errors
  import opened VppInterface

  /** The seven configuration operations that send exactly one request.
      `configure_extend_ipv4_mac_binding` sends one request per host and can stop part-way,
      so it is not a command; `ExtendIpv4MacBinding` models it. */
  datatype Command =
    | ConfigIp4Cmd
    | ConfigIp6Cmd
    | SetTableIp4Cmd(tableId: nat)
    | SetTableIp6Cmd(tableId: nat)
    | DisableIpv6RaCmd
    | AdminUpCmd
    | EnableMplsCmd

  /** The interface a request is addressed to. */
  function Target(c: Call): nat
  {
    match c
    case SwInterfaceAddDelAddress(sw, _, _, _) => sw
    case IpNeighborAddDel(sw, _, _) => sw
    case SwInterfaceSetTable(sw, _, _) => sw
    case SwInterfaceRaSuppress(sw) => sw
    case SwInterfaceSetFlags(sw, _) => sw
    case SwInterfaceEnableDisableMpls(sw) => sw
  }

  /** Reads back which operation sent a request, independently of how the operations
      build them: a 24-bit IPv4 prefix, a 64-bit IPv6 prefix, a table for one family,
      RA suppression, admin-up, MPLS enabling. Any other request is not one of them. */
  function CommandOf(c: Call): Option<Command>
  {
    match c
    case SwInterfaceAddDelAddress(_, address, len, v6) =>
      if !v6 && len == 24 && |address| == 4 then Some(ConfigIp4Cmd)
      else if v6 && len == 64 && |address| == 16 then Some(ConfigIp6Cmd)
      else None
    case IpNeighborAddDel(_, _, _) => None
    case SwInterfaceSetTable(_, v6, table) => Some(if v6 then SetTableIp6Cmd(table) else SetTableIp4Cmd(table))
    case SwInterfaceRaSuppress(_) => Some(DisableIpv6RaCmd)
    case SwInterfaceSetFlags(_, up) => if up then Some(AdminUpCmd) else None
    case SwInterfaceEnableDisableMpls(_) => Some(EnableMplsCmd)
  }

  /** `config_ip4`: the local IPv4 address, converted again, with a 24-bit prefix. The
      address sent is exactly the one whose text is `local_ip4`; the hosts play no part. */
  function ConfigIp4(intf: Interface): (r: Result<Call, Error>)
    ensures r.Success? ==> CommandOf(r.value) == Some(ConfigIp4Cmd) && Target(r.value) == intf.swIfIndex
    ensures r.Success? ==> FormatIp4(r.value.address) == intf.localIp4
    ensures r.Failure? ==> r.error == AddressError
    ensures LocalIdentity(intf) ==> r.Success? && r.value.address == Ip4Bytes(intf.swIfIndex, 1)
  {
    match LocalIp4n(intf)
    case Failure(e) => Failure(e)
    case Success(addr) =>
      ParseIp4Canonical(intf.localIp4);
      Success(SwInterfaceAddDelAddress(intf.swIfIndex, addr, 24, false))
  }

  /** `config_ip6`: the stored binary local IPv6 address with a 64-bit prefix; with the
      derived local addresses it is the conversion of `local_ip6`, whatever the hosts. */
  function ConfigIp6(intf: Interface): (r: Call)
    ensures LocalIdentity(intf) ==> CommandOf(r) == Some(ConfigIp6Cmd)
    ensures Target(r) == intf.swIfIndex
    ensures LocalIdentity(intf) ==> Some(r.address) == ParseIp6(intf.localIp6)
    ensures LocalIdentity(intf) ==> r.address == Ip6Bytes(intf.swIfIndex, 1)
  {
    LocalIp6Binary(intf.swIfIndex);
    SwInterfaceAddDelAddress(intf.swIfIndex, intf.localIp6n, 64, true)
  }

  /** `set_table_ip4(table_id)`. */
  function SetTableIp4(intf: Interface, tableId: nat): (r: Call)
    ensures CommandOf(r) == Some(SetTableIp4Cmd(tableId)) && Target(r) == intf.swIfIndex
  {
    SwInterfaceSetTable(intf.swIfIndex, false, tableId)
  }

  /** `set_table_ip6(table_id)`. */
  function SetTableIp6(intf: Interface, tableId: nat): (r: Call)
    ensures CommandOf(r) == Some(SetTableIp6Cmd(tableId)) && Target(r) == intf.swIfIndex
  {
    SwInterfaceSetTable(intf.swIfIndex, true, tableId)
  }

  /** `disable_ipv6_ra`. */
  function DisableIpv6Ra(intf: Interface): (r: Call)
    ensures CommandOf(r) == Some(DisableIpv6RaCmd) && Target(r) == intf.swIfIndex
  {
    SwInterfaceRaSuppress(intf.swIfIndex)
  }

  /** `admin_up`. */
  function AdminUp(intf: Interface): (r: Call)
    ensures CommandOf(r) == Some(AdminUpCmd) && Target(r) == intf.swIfIndex
  {
    SwInterfaceSetFlags(intf.swIfIndex, true)
  }

  /** `enable_mpls`. */
  function EnableMpls(intf: Interface): (r: Call)
    ensures CommandOf(r) == Some(EnableMplsCmd) && Target(r) == intf.swIfIndex
  {
    SwInterfaceEnableDisableMpls(intf.swIfIndex)
  }

  /** The requests one command sends. */
  function Issue(intf: Interface, cmd: Command): Result<seq<Call>, Error>
  {
    match cmd
    case ConfigIp4Cmd =>
      (match ConfigIp4(intf) case Failure(e) => Failure(e) case Success(c) => Success([c]))
    case ConfigIp6Cmd => Success([ConfigIp6(intf)])
    case SetTableIp4Cmd(t) => Success([SetTableIp4(intf, t)])
    case SetTableIp6Cmd(t) => Success([SetTableIp6(intf, t)])
    case DisableIpv6RaCmd => Success([DisableIpv6Ra(intf)])
    case AdminUpCmd => Success([AdminUp(intf)])
    case EnableMplsCmd => Success([EnableMpls(intf)])
  }

  /** With the derived local addresses every command sends one request to that interface,
      and the request tells which command sent it: no two commands are confused. */
  lemma IssueDecodes(intf: Interface, cmd: Command)
    requires LocalIdentity(intf)
    ensures Issue(intf, cmd).Success?
    ensures |Issue(intf, cmd).value| == 1
    ensures Target(Issue(intf, cmd).value[0]) == intf.swIfIndex
    ensures CommandOf(Issue(intf, cmd).value[0]) == Some(cmd)
  {
  }

  /** A command run after the requests already sent: its request is appended to the trace,
      or the command raises and the trace stays as it was. */
  function Apply(trace: seq<Call>, intf: Interface, cmd: Command): (r: Result<seq<Call>, Error>)
    ensures r.Success? ==> |r.value| == |trace| + 1 && r.value[..|trace|] == trace
    ensures r.Success? ==> Target(r.value[|trace|]) == intf.swIfIndex
    ensures r.Failure? ==> cmd == ConfigIp4Cmd && r.error == AddressError
    ensures LocalIdentity(intf) ==> r.Success? && CommandOf(r.value[|trace|]) == Some(cmd)
  {
    IssueDecodesWhenLocal(intf, cmd);
    match Issue(intf, cmd)
    case Failure(e) => Failure(e)
    case Success(calls) => Success(trace + calls)
  }

  lemma IssueDecodesWhenLocal(intf: Interface, cmd: Command)
    ensures LocalIdentity(intf) ==> Issue(intf, cmd).Success? && |Issue(intf, cmd).value| == 1
                                    && CommandOf(Issue(intf, cmd).value[0]) == Some(cmd)
  {
    if LocalIdentity(intf) {
      IssueDecodes(intf, cmd);
    }
  }

  /** Commands run one after another, stopping at the first that raises. */
  function ApplyAll(trace: seq<Call>, intf: Interface, cmds: seq<Command>): Result<seq<Call>, Error>
    decreases |cmds|
  {
    if cmds == [] then Success(trace)
    else
      match Apply(trace, intf, cmds[0])
      case Failure(e) => Failure(e)
      case Success(t) => ApplyAll(t, intf, cmds[1..])
  }

  /** With the derived local addresses a sequence of commands never raises; the trace keeps
      what was sent before and gains one request per command, in command order, each for
      this interface and each telling which command sent it. */
  lemma {:induction false} ApplyAllInOrder(trace: seq<Call>, intf: Interface, cmds: seq<Command>)
    requires LocalIdentity(intf)
    ensures ApplyAll(trace, intf, cmds).Success?
    ensures |ApplyAll(trace, intf, cmds).value| == |trace| + |cmds|
    ensures ApplyAll(trace, intf, cmds).value[..|trace|] == trace
    ensures forall i | 0 <= i < |cmds| ::
      && CommandOf(ApplyAll(trace, intf, cmds).value[|trace| + i]) == Some(cmds[i])
      && Target(ApplyAll(trace, intf, cmds).value[|trace| + i]) == intf.swIfIndex
    decreases |cmds|
  {
    if cmds != [] {
      var t := Apply(trace, intf, cmds[0]).value;
      ApplyAllInOrder(t, intf, cmds[1..]);
      var u := ApplyAll(t, intf, cmds[1..]).value;
      assert ApplyAll(trace, intf, cmds).value == u;
      assert u[..|trace|] == t[..|trace|];
      forall i | 0 <= i < |cmds|
        ensures CommandOf(u[|trace| + i]) == Some(cmds[i]) && Target(u[|trace| + i]) == intf.swIfIndex
      {
        if i == 0 {
          assert u[|trace|] == t[|trace|];
        } else {
          assert cmds[1..][i - 1] == cmds[i];
          assert |t| + (i - 1) == |trace| + i;
        }
      }
    }
  }

  // ---------------------------------------------------------------------------
  // configure_extend_ipv4_mac_binding

  /** A run of a method that sends requests in a loop: the requests sent, in order, and
      the error that ended it early, if one did. */
  datatype Run = Run(calls: seq<Call>, failure: Option<Error>)

  /** The neighbor request for one host: its MAC with the colons removed and hex-decoded,
      and the binary form of its IPv4 address. A MAC that does not decode raises first. */
  function NeighborCall(swIfIndex: nat, h: Host): (r: Result<Call, Error>)
    ensures r.Success? <==> MacBytesOf(h.mac).Some? && ParseIp4(h.ip4).Some?
    ensures r.Failure? ==> r.error == (if MacBytesOf(h.mac).None? then HexError else AddressError)
    ensures r.Success? ==> r.value == IpNeighborAddDel(swIfIndex, MacBytesOf(h.mac).value, ParseIp4(h.ip4).value)
  {
    match MacBytesOf(h.mac)
    case None => Failure(HexError)
    case Some(mac) =>
      match ParseIp4(h.ip4)
      case None => Failure(AddressError)
      case Some(ip) => Success(IpNeighborAddDel(swIfIndex, mac, ip))
  }

  /** The loop over the hosts: one request per host in order, stopping at the first host
      whose request cannot be built. */
  function BindAll(swIfIndex: nat, hosts: seq<Host>): (r: Run)
    ensures |r.calls| <= |hosts|
    ensures forall i | 0 <= i < |r.calls| :: NeighborCall(swIfIndex, hosts[i]) == Success(r.calls[i])
    ensures r.failure.None? <==> |r.calls| == |hosts|
    ensures r.failure.Some? ==> NeighborCall(swIfIndex, hosts[|r.calls|]) == Failure(r.failure.value)
    decreases |hosts|
  {
    if hosts == [] then Run([], None)
    else
      match NeighborCall(swIfIndex, hosts[0])
      case Failure(e) => Run([], Some(e))
      case Success(c) =>
        var rest := BindAll(swIfIndex, hosts[1..]);
        Run([c] + rest.calls, rest.failure)
  }

  /** When every host's request can be built, the loop sends all of them. */
  lemma BindAllSucceeds(swIfIndex: nat, hosts: seq<Host>)
    requires forall i | 0 <= i < |hosts| :: NeighborCall(swIfIndex, hosts[i]).Success?
    ensures BindAll(swIfIndex, hosts).failure == None
  {
  }

  /** When host k is the first whose request cannot be built, exactly k requests are sent
      and the run fails with that host's error. */
  lemma BindAllStopsAt(swIfIndex: nat, hosts: seq<Host>, k: nat)
    requires k < |hosts|
    requires forall i | 0 <= i < k :: NeighborCall(swIfIndex, hosts[i]).Success?
    requires NeighborCall(swIfIndex, hosts[k]).Failure?
    ensures |BindAll(swIfIndex, hosts).calls| == k
    ensures BindAll(swIfIndex, hosts).failure == Some(NeighborCall(swIfIndex, hosts[k]).error)
  {
  }

  /** `configure_extend_ipv4_mac_binding`. */
  function ExtendIpv4MacBinding(intf: Interface): (r: Run)
    ensures |r.calls| <= |intf.table.hosts|
    ensures forall i | 0 <= i < |r.calls| ::
      && NeighborCall(intf.swIfIndex, intf.table.hosts[i]) == Success(r.calls[i])
      && Target(r.calls[i]) == intf.swIfIndex
    ensures r.failure.None? <==> |r.calls| == |intf.table.hosts|
    ensures r.failure.Some? ==> NeighborCall(intf.swIfIndex, intf.table.hosts[|r.calls|]) == Failure(r.failure.value)
  {
    BindAll(intf.swIfIndex, intf.table.hosts)
  }

  /** A derived host whose index and ordinal fit in a byte gets the neighbor request that
      binds MAC bytes 02:index:00:00:ff:ordinal to 172.16.index.ordinal. */
  lemma NeighborCallDerived(swIfIndex: byte, ordinal: byte)
    ensures NeighborCall(swIfIndex, DeriveHost(swIfIndex, ordinal))
         == Success(IpNeighborAddDel(swIfIndex, HostMacBytes(swIfIndex, ordinal), Ip4Bytes(swIfIndex, ordinal)))
  {
    HostMacBinary(swIfIndex, ordinal);
    HostIp4Binary(swIfIndex, ordinal);
  }

  /** From ordinal 256 on, a derived host's last MAC field has three digits, so its MAC
      does not decode and the request cannot be built: the hex-decoding error. */
  lemma NeighborCallOverflow(swIfIndex: byte, ordinal: nat)
    requires 256 <= ordinal < 4096
    ensures NeighborCall(swIfIndex, DeriveHost(swIfIndex, ordinal)) == Failure(HexError)
  {
    HostMacOverflow(swIfIndex, ordinal);
  }

  /** With at most 254 hosts, one neighbor request per host binds host k's MAC bytes
      02:index:00:00:ff:k to its address 172.16.index.k, and nothing fails. */
  lemma {:induction false} ExtendBindingComplete(intf: Interface)
    requires intf.swIfIndex <= 255 && HostsDerived(intf)
    requires |intf.table.hosts| <= 254
    ensures ExtendIpv4MacBinding(intf).failure.None?
    ensures |ExtendIpv4MacBinding(intf).calls| == |intf.table.hosts|
    ensures forall i | 0 <= i < |intf.table.hosts| ::
      ExtendIpv4MacBinding(intf).calls[i]
        == IpNeighborAddDel(intf.swIfIndex, HostMacBytes(intf.swIfIndex, i + FirstOrdinal), Ip4Bytes(intf.swIfIndex, i + FirstOrdinal))
  {
    var sw := intf.swIfIndex;
    var hosts := intf.table.hosts;
    forall i | 0 <= i < |hosts|
      ensures NeighborCall(sw, hosts[i])
           == Success(IpNeighborAddDel(sw, HostMacBytes(sw, i + FirstOrdinal), Ip4Bytes(sw, i + FirstOrdinal)))
    {
      assert hosts[i] == DeriveHost(sw, i + FirstOrdinal);
      NeighborCallDerived(sw, i + FirstOrdinal);
    }
    BindAllSucceeds(sw, hosts);
  }

  /** With 255 hosts or more, the host with ordinal 256 has a three-digit last MAC field,
      its MAC does not decode, and the loop stops there after 254 requests. */
  lemma ExtendBindingOverflow(intf: Interface)
    requires intf.swIfIndex <= 255 && HostsDerived(intf)
    requires |intf.table.hosts| >= 255
    ensures |ExtendIpv4MacBinding(intf).calls| == 254
    ensures ExtendIpv4MacBinding(intf).failure == Some(HexError)
  {
    var sw := intf.swIfIndex;
    var hosts := intf.table.hosts;
    forall i | 0 <= i < 254 ensures NeighborCall(sw, hosts[i]).Success? {
      assert hosts[i] == DeriveHost(sw, i + FirstOrdinal);
      NeighborCallDerived(sw, i + FirstOrdinal);
    }
    assert hosts[254] == DeriveHost(sw, 256);
    NeighborCallOverflow(sw, 256);
    BindAllStopsAt(sw, hosts, 254);
  }
}

=== FILE: discovery.dfy ===
/** Reconciliation against the interface dump: find the first entry for this
    interface, and take its name and hardware address from it. */
module Discovery {
  import opened Wrappers
  import opened Seqs
  import opened Text
  import opened Identity
  import opened Vapi
  import opened Errors

  /** What the dump contributes to the interface record: `_name`, `_local_mac`, `_dump`. */
  datatype Discovered = Discovered(name: seq<byte>, localMac: string, dump: DumpEntry)

  /** The interface name as the dump reports it, cut before the first NUL byte: the first
      part of a split at NUL, which is all of it when it holds none. */
  function TrimAtNul(name: seq<byte>): (r: seq<byte>)
    ensures r <= name
    ensures 0 !in r
    ensures r == name || name[|r|] == 0
  {
    SplitHead(name, 0);
    Split(name, 0)[0]
  }

  lemma HexEncodeDigits(b: seq<byte>)
    ensures ':' !in HexEncode(b)
  {
    if b != [] {
      HexEncodeDigits(b[1..]);
    }
  }

  lemma HexEncodeAt(b: seq<byte>, i: nat)
    requires i < |b|
    ensures HexEncode(b)[2 * i..2 * i + 2] == HexByte(b[i])
  {
    HexEncodeAppend(b[..i], b[i..]);
    assert b[..i] + b[i..] == b;
    assert HexEncode(b[i..]) == HexByte(b[i]) + HexEncode(b[i + 1..]) by {
      assert b[i..][1..] == b[i + 1..];
    }
  }

  /** The local MAC text: the hardware address hex-encoded, cut into the six two-character
      slices at offsets 0, 2, .., 10 (clamped, so a short address gives short or empty
      slices) and joined with colons. With at least six bytes this is the colon-separated
      text of the first six. */
  function RenderL2Address(l2: seq<byte>): (mac: string)
    ensures |l2| >= 6 ==> mac == MacText(l2[..6])
  {
    var hex := HexEncode(l2);
    var pieces := seq(6, i requires 0 <= i < 6 => Slice(hex, 2 * i, 2 * i + 2));
    assert |l2| >= 6 ==> pieces == seq(6, i requires 0 <= i < 6 => HexByte(l2[..6][i])) by {
      if |l2| >= 6 {
        forall i | 0 <= i < 6 ensures pieces[i] == HexByte(l2[..6][i]) {
          HexEncodeAt(l2, i);
        }
      }
    }
    Join(pieces, ':')
  }

  /** The MAC decoding of `configure_extend_ipv4_mac_binding` undoes the rendering: colons removed and hex-decoded, the local MAC
      text gives back the first six bytes of the hardware address (all of them when shorter). */
  lemma L2AddressRoundTrip(l2: seq<byte>)
    ensures MacBytesOf(RenderL2Address(l2)) == Some(l2[..Min(6, |l2|)])
  {
    var hex := HexEncode(l2);
    var pieces := seq(6, i requires 0 <= i < 6 => Slice(hex, 2 * i, 2 * i + 2));
    HexEncodeDigits(l2);
    forall i | 0 <= i < 6 ensures ':' !in pieces[i] {
    }
    RemoveAllJoin(pieces, ':');
    assert pieces == seq(6, i requires 0 <= i => Slice(hex, 2 * i, 2 * i + 2));
    FlattenPairSlices(hex, 6);
    var m := Min(6, |l2|);
    HexEncodePrefix(l2, m);
    HexDecodeEncode(l2[..m]);
  }

  /** k is the position of the first dump entry for the interface. */
  predicate IsFirstMatch(dump: seq<DumpEntry>, swIfIndex: nat, k: nat)
  {
    && k < |dump|
    && dump[k].swIfIndex == swIfIndex
    && forall j | 0 <= j < k :: dump[j].swIfIndex != swIfIndex
  }

  /** The scan of the dump, stopping at the first entry whose index matches. */
  method FindInterface(dump: seq<DumpEntry>, swIfIndex: nat) returns (found: Option<nat>)
    ensures found.Some? ==> IsFirstMatch(dump, swIfIndex, found.value)
    ensures found.None? <==> forall k | 0 <= k < |dump| :: dump[k].swIfIndex != swIfIndex
  {
    var k := 0;
    while k < |dump|
      invariant k <= |dump|
      invariant forall j | 0 <= j < k :: dump[j].swIfIndex != swIfIndex
    {
      if dump[k].swIfIndex == swIfIndex {
        return Some(k);
      }
      k := k + 1;
    }
    return None;
  }

  /** The for/else of `post_init_setup`: the first matching entry supplies the name (cut at
      the first NUL), the local MAC (its first six address bytes as hex pairs) and the dump
      record; with no matching entry the error carries the index and the whole dump. */
  method Reconcile(dump: seq<DumpEntry>, swIfIndex: nat) returns (r: Result<Discovered, Error>)
    ensures r.Success? <==> exists k | 0 <= k < |dump| :: dump[k].swIfIndex == swIfIndex
    ensures r.Failure? ==> r.error == InterfaceNotFound(swIfIndex, dump)
    ensures r.Success? ==> exists k: nat :: && IsFirstMatch(dump, swIfIndex, k)
                                            && r.value.dump == dump[k]
                                            && r.value.name == TrimAtNul(dump[k].interfaceName)
                                            && r.value.localMac == RenderL2Address(dump[k].l2Address)
  {
    var found := FindInterface(dump, swIfIndex);
    match found
    case None =>
      r := Failure(InterfaceNotFound(swIfIndex, dump));
    case Some(k) =>
      var entry := dump[k];
      r := Success(Discovered(TrimAtNul(entry.interfaceName), RenderL2Address(entry.l2Address), entry));
  }

  /** The name is cut exactly at the first NUL byte ... */
  lemma TrimAtFirstNul(name: seq<byte>, k: nat)
    requires k < |name| && name[k] == 0
    requires forall i | 0 <= i < k :: name[i] != 0
    ensures TrimAtNul(name) == name[..k]
  {
    var r := TrimAtNul(name);
    assert forall i | 0 <= i < |r| :: name[i] == r[i];
    assert |r| == k;
  }

  /** ... and kept whole when it holds none. */
  lemma TrimWithoutNul(name: seq<byte>)
    requires 0 !in name
    ensures TrimAtNul(name) == name
  {
  }

  /** An example: an entry named "eth5", NUL-padded, yields the name "eth5". */
  lemma NameExample()
    ensures TrimAtNul([101, 116, 104, 53, 0, 0]) == [101, 116, 104, 53]
  {
    TrimAtFirstNul([101, 116, 104, 53, 0, 0], 4);
  }

  /** ... and hardware address aa:bb:cc:dd:ee:ff (padded to eight bytes) yields that MAC text. */
  lemma MacExample()
    ensures RenderL2Address([0xaa, 0xbb, 0xcc, 0xdd, 0xee, 0xff, 0, 0]) == "aa:bb:cc:dd:ee:ff"
  {
    var b: seq<byte> := [0xaa, 0xbb, 0xcc, 0xdd, 0xee, 0xff, 0, 0];
    assert b[..6] == [0xaa, 0xbb, 0xcc, 0xdd, 0xee, 0xff];
    MacTextExample();
  }

  lemma MacTextExample()
    ensures MacText([0xaa, 0xbb, 0xcc, 0xdd, 0xee, 0xff]) == "aa:bb:cc:dd:ee:ff"
  {
    var six: seq<byte> := [0xaa, 0xbb, 0xcc, 0xdd, 0xee, 0xff];
    var parts := seq(6, i requires 0 <= i < 6 => HexByte(six[i]));
    assert parts == ["aa", "bb", "cc", "dd", "ee", "ff"] by {
      assert HexByte(0xaa) == "aa" && HexByte(0xbb) == "bb" && HexByte(0xcc) == "cc";
      assert HexByte(0xdd) == "dd" && HexByte(0xee) == "ee" && HexByte(0xff) == "ff";
    }
    Join6("aa", "bb", "cc", "dd", "ee", "ff", ':');
  }
}

=== FILE: errors.dfy ===
/** The exceptions the interface code can raise, as values. */
module Errors {
  import opened Vapi

  datatype Error =
    /** A missing key in one of the host dictionaries (Python's KeyError). */
    | KeyError(key: string)
    /** `remote_mac`, `remote_ip4` or `remote_ip6` with no remote hosts (IndexError). */
    | IndexError
    /** inet_pton rejected an address text (socket.error). */
    | AddressError
    /** `decode('hex')` rejected a string (TypeError). */
    | HexError
    /** The dump holds no entry for the interface: carries the index and the whole dump. */
    | InterfaceNotFound(swIfIndex: nat, dump: seq<DumpEntry>)
}

=== FILE: host_index.dfy ===
/** The remote host list of an interface together with its three lookup
    dictionaries (by MAC, by IPv4, by IPv6), how `generate_remote_hosts` builds
    them, and the `host_by_*` lookups. */
module HostIndex {
  import opened Wrappers
  import opened Identity
  import opened Errors

  datatype Kind = ByMac | ByIp4 | ByIp6

  function Key(h: Host, kind: Kind): string
  {
    match kind
    case ByMac => h.mac
    case ByIp4 => h.ip4
    case ByIp6 => h.ip6
  }

  /** `_remote_hosts` and the dictionaries `_hosts_by_mac`, `_hosts_by_ip4`, `_hosts_by_ip6`. */
  datatype HostTable = HostTable(
    hosts: seq<Host>,
    byMac: map<string, Host>,
    byIp4: map<string, Host>,
    byIp6: map<string, Host>)
  {
    function Index(kind: Kind): map<string, Host>
    {
      match kind
      case ByMac => byMac
      case ByIp4 => byIp4
      case ByIp6 => byIp6
    }
  }

  function KeySet(hosts: seq<Host>, kind: Kind): set<string>
  {
    set h | h in hosts :: Key(h, kind)
  }

  predicate KeysUnique(hosts: seq<Host>, kind: Kind)
  {
    forall i, j | 0 <= i < j < |hosts| :: Key(hosts[i], kind) != Key(hosts[j], kind)
  }

  /** m indexes exactly these hosts: its keys are the hosts' keys, no more, and each
      host's key leads back to that host. */
  ghost predicate Indexes(hosts: seq<Host>, m: map<string, Host>, kind: Kind)
  {
    && m.Keys == KeySet(hosts, kind)
    && forall h | h in hosts :: Key(h, kind) in m && m[Key(h, kind)] == h
  }

  /** All three dictionaries index exactly the current host list. */
  ghost predicate Consistent(t: HostTable)
  {
    && Indexes(t.hosts, t.byMac, ByMac)
    && Indexes(t.hosts, t.byIp4, ByIp4)
    && Indexes(t.hosts, t.byIp6, ByIp6)
  }

  /** The dictionary that `d[key(h)] = h`, run over the hosts in order starting from an
      empty dictionary, produces: a later host overwrites an earlier one with the same key. */
  function BuildIndex(hosts: seq<Host>, kind: Kind): (m: map<string, Host>)
    ensures m.Keys == KeySet(hosts, kind)
    decreases |hosts|
  {
    if hosts == [] then map[]
    else
      var init, last := hosts[..|hosts| - 1], hosts[|hosts| - 1];
      assert hosts == init + [last];
      BuildIndex(init, kind)[Key(last, kind) := last]
  }

  lemma BuildIndexSnoc(hosts: seq<Host>, h: Host, kind: Kind)
    ensures BuildIndex(hosts + [h], kind) == BuildIndex(hosts, kind)[Key(h, kind) := h]
  {
    assert (hosts + [h])[..|hosts|] == hosts;
  }

  /** Built from hosts with distinct keys, the dictionary indexes exactly those hosts. */
  lemma {:induction false} BuildIndexExact(hosts: seq<Host>, kind: Kind)
    requires KeysUnique(hosts, kind)
    ensures Indexes(hosts, BuildIndex(hosts, kind), kind)
    decreases |hosts|
  {
    if hosts != [] {
      var init, last := hosts[..|hosts| - 1], hosts[|hosts| - 1];
      assert hosts == init + [last];
      BuildIndexExact(init, kind);
      forall h | h in init ensures Key(h, kind) != Key(last, kind) {
        var i :| 0 <= i < |init| && init[i] == h;
        assert hosts[i] == h;
      }
    }
  }

  /** Conversely, no dictionary indexes a host list in which two hosts share a key. */
  lemma IndexesNeedUniqueKeys(hosts: seq<Host>, m: map<string, Host>, kind: Kind)
    requires Indexes(hosts, m, kind)
    ensures KeysUnique(hosts, kind) <==> forall i, j | 0 <= i < j < |hosts| :: hosts[i] != hosts[j]
  {
    forall i, j | 0 <= i < j < |hosts| && hosts[i] != hosts[j]
      ensures Key(hosts[i], kind) != Key(hosts[j], kind)
    {
      assert hosts[i] in hosts && hosts[j] in hosts;
    }
  }

  lemma DerivedHostsSnoc(swIfIndex: nat, n: nat)
    ensures DerivedHosts(swIfIndex, n + 1) == DerivedHosts(swIfIndex, n) + [DeriveHost(swIfIndex, n + FirstOrdinal)]
  {
  }

  /** The generated hosts have distinct keys of every kind. */
  lemma DerivedKeysUnique(swIfIndex: nat, count: nat, kind: Kind)
    ensures KeysUnique(DerivedHosts(swIfIndex, count), kind)
  {
    DerivedHostsUnique(swIfIndex, count);
  }

  /** The host list and its dictionaries exactly as `generate_remote_hosts(count)` leaves
      them: the list is rebuilt from empty, so no entry of an earlier list survives. */
  method GenerateRemoteHosts(swIfIndex: nat, count: nat) returns (t: HostTable)
    ensures t.hosts == DerivedHosts(swIfIndex, count)
    ensures Consistent(t)
  {
    var hosts: seq<Host> := [];
    var byMac: map<string, Host> := map[];
    var byIp4: map<string, Host> := map[];
    var byIp6: map<string, Host> := map[];
    var i := FirstOrdinal;
    while i < count + FirstOrdinal
      invariant FirstOrdinal <= i <= count + FirstOrdinal
      invariant hosts == DerivedHosts(swIfIndex, i - FirstOrdinal)
      invariant byMac == BuildIndex(hosts, ByMac)
      invariant byIp4 == BuildIndex(hosts, ByIp4)
      invariant byIp6 == BuildIndex(hosts, ByIp6)
    {
      var host := DeriveHost(swIfIndex, i);
      BuildIndexSnoc(hosts, host, ByMac);
      BuildIndexSnoc(hosts, host, ByIp4);
      BuildIndexSnoc(hosts, host, ByIp6);
      DerivedHostsSnoc(swIfIndex, i - FirstOrdinal);
      hosts := hosts + [host];
      byMac := byMac[host.mac := host];
      byIp4 := byIp4[host.ip4 := host];
      byIp6 := byIp6[host.ip6 := host];
      i := i + 1;
    }
    assert hosts == DerivedHosts(swIfIndex, count);
    DerivedKeysUnique(swIfIndex, count, ByMac);
    DerivedKeysUnique(swIfIndex, count, ByIp4);
    DerivedKeysUnique(swIfIndex, count, ByIp6);
    BuildIndexExact(hosts, ByMac);
    BuildIndexExact(hosts, ByIp4);
    BuildIndexExact(hosts, ByIp6);
    t := HostTable(hosts, byMac, byIp4, byIp6);
  }

  /** Two dictionaries that both index exactly the same host list are equal. */
  lemma IndexDetermined(hosts: seq<Host>, m1: map<string, Host>, m2: map<string, Host>, kind: Kind)
    requires Indexes(hosts, m1, kind) && Indexes(hosts, m2, kind)
    ensures m1 == m2
  {
    forall k | k in m1 ensures m1[k] == m2[k] {
      var h :| h in hosts && Key(h, kind) == k;
    }
  }

  /** Two consistent tables over the same host list are the same table: the dictionaries
      are determined by the list, so generation is deterministic. */
  lemma ConsistentTableDetermined(t1: HostTable, t2: HostTable)
    requires Consistent(t1) && Consistent(t2)
    requires t1.hosts == t2.hosts
    ensures t1 == t2
  {
    IndexDetermined(t1.hosts, t1.byMac, t2.byMac, ByMac);
    IndexDetermined(t1.hosts, t1.byIp4, t2.byIp4, ByIp4);
    IndexDetermined(t1.hosts, t1.byIp6, t2.byIp6, ByIp6);
  }

  /** `host_by_mac`, `host_by_ip4`, `host_by_ip6`: a dictionary lookup that raises
      KeyError on a miss. */
  function HostBy(t: HostTable, kind: Kind, key: string): (r: Result<Host, Error>)
    ensures r.Failure? ==> r.error == KeyError(key)
    ensures Consistent(t) ==> (r.Success? <==> exists h | h in t.hosts :: Key(h, kind) == key)
    ensures Consistent(t) && r.Success? ==> r.value in t.hosts && Key(r.value, kind) == key
  {
    if key in t.Index(kind) then Success(t.Index(kind)[key]) else Failure(KeyError(key))
  }

  /** In a consistent table, looking up any listed host's address finds that host. */
  lemma LookupFindsHost(t: HostTable, h: Host, kind: Kind)
    requires Consistent(t)
    requires h in t.hosts
    ensures HostBy(t, kind, Key(h, kind)) == Success(h)
  {
  }
}

=== FILE: identity.dfy ===
/** Identity derivation: the addresses of an interface and of its simulated
    remote hosts, computed from the interface index and a host ordinal with
    fixed printf formats. Ordinal 0 stands for the network address, ordinal 1
    for the interface's own address, so remote hosts start at ordinal 2. */
module Identity {
  import opened Wrappers
  import opened Seqs
  import opened Text
  import opened Inet

  /** A simulated remote peer, with its addresses in their text forms. */
  datatype Host = Host(mac: string, ip4: string, ip6: string)

  /** The ordinal of the first remote host. */
  const FirstOrdinal: nat := 2

  /** A remote host's MAC: 02, the index as two or more hex digits, 00, 00, ff, then the
      ordinal the same way, colon-separated. */
  function HostMac(swIfIndex: nat, ordinal: nat): string
  {
    "02:" + FormatHex(swIfIndex, 2) + ":00:00:ff:" + FormatHex(ordinal, 2)
  }

  /** A remote host's IPv4 text: 172.16, then the index and the ordinal in decimal. */
  function HostIp4(swIfIndex: nat, ordinal: nat): string
  {
    "172.16." + FormatDec(swIfIndex) + "." + FormatDec(ordinal)
  }

  /** A remote host's IPv6 text: group fd01, the index as four or more hex digits, a "::",
      then the ordinal the same way. */
  function HostIp6(swIfIndex: nat, ordinal: nat): string
  {
    "fd01:" + FormatHex(swIfIndex, 4) + "::" + FormatHex(ordinal, 4)
  }

  /** The interface's own IPv4 text: host number 1 in the same network. */
  function LocalIp4(swIfIndex: nat): string
  {
    "172.16." + FormatDec(swIfIndex) + ".1"
  }

  /** The interface's own IPv6 text: host number 1 in the same prefix. */
  function LocalIp6(swIfIndex: nat): string
  {
    "fd01:" + FormatHex(swIfIndex, 4) + "::1"
  }

  function DeriveHost(swIfIndex: nat, ordinal: nat): Host
  {
    Host(HostMac(swIfIndex, ordinal), HostIp4(swIfIndex, ordinal), HostIp6(swIfIndex, ordinal))
  }

  /** The hosts `generate_remote_hosts(count)` produces, in order: ordinals 2 .. count + 1. */
  function DerivedHosts(swIfIndex: nat, count: nat): seq<Host>
  {
    seq(count, k requires 0 <= k => DeriveHost(swIfIndex, k + FirstOrdinal))
  }

  /** The colon-separated text of a 6-byte hardware address: six lower-case hex pairs. */
  function MacText(b: seq<byte>): string
    requires |b| == 6
  {
    Join(seq(6, i requires 0 <= i < 6 => HexByte(b[i])), ':')
  }

  /** The bytes behind a MAC text, as the binding code gets them: colons deleted, then
      hex-decoded; an error when the rest does not decode. */
  function MacBytesOf(mac: string): Option<seq<byte>>
  {
    HexDecode(RemoveAll(mac, ':'))
  }

  /** The binary forms of the derived addresses. */
  function HostMacBytes(swIfIndex: byte, ordinal: byte): seq<byte>
  {
    [2, swIfIndex, 0, 0, 255, ordinal]
  }

  function Ip4Bytes(swIfIndex: byte, ordinal: byte): seq<byte>
  {
    [172, 16, swIfIndex, ordinal]
  }

  function Ip6Bytes(swIfIndex: nat, ordinal: nat): seq<byte>
  {
    GroupsBytes([0xfd01, swIfIndex, 0, 0, 0, 0, 0, ordinal])
  }

  // ---------------------------------------------------------------------------
  // The MAC text round trip

  lemma HexByteNoColon(x: byte)
    ensures ':' !in HexByte(x)
  {
  }

  /** Deleting the colons from a MAC text and hex-decoding gives back its six bytes. */
  lemma MacTextRoundTrip(b: seq<byte>)
    requires |b| == 6
    ensures MacBytesOf(MacText(b)) == Some(b)
  {
    var parts := seq(6, i requires 0 <= i < 6 => HexByte(b[i]));
    forall i | 0 <= i < 6 ensures ':' !in parts[i] {
      HexByteNoColon(b[i]);
    }
    RemoveAllJoin(parts, ':');
    assert Flatten(parts) == HexEncode(b) by {
      FlattenSix(parts);
      HexEncodeSix(b);
    }
    HexDecodeEncode(b);
  }

  lemma FlattenSix(p: seq<string>)
    requires |p| == 6
    ensures Flatten(p) == p[0] + p[1] + p[2] + p[3] + p[4] + p[5]
  {
    assert p[5..][1..] == [];
    assert Flatten(p[5..]) == p[5];
    assert p[4..][1..] == p[5..];
    assert Flatten(p[4..]) == p[4] + p[5];
    assert p[3..][1..] == p[4..];
    assert Flatten(p[3..]) == p[3] + (p[4] + p[5]);
    assert p[2..][1..] == p[3..];
    assert Flatten(p[2..]) == p[2] + (p[3] + (p[4] + p[5]));
    assert p[1..][1..] == p[2..];
    assert Flatten(p[1..]) == p[1] + (p[2] + (p[3] + (p[4] + p[5])));
  }

  lemma HexEncodeSix(b: seq<byte>)
    requires |b| == 6
    ensures HexEncode(b) == HexByte(b[0]) + HexByte(b[1]) + HexByte(b[2]) + HexByte(b[3]) + HexByte(b[4]) + HexByte(b[5])
  {
    assert b[5..][1..] == [];
    assert HexEncode(b[5..]) == HexByte(b[5]);
    assert b[4..][1..] == b[5..];
    assert HexEncode(b[4..]) == HexByte(b[4]) + HexByte(b[5]);
    assert b[3..][1..] == b[4..];
    assert HexEncode(b[3..]) == HexByte(b[3]) + (HexByte(b[4]) + HexByte(b[5]));
    assert b[2..][1..] == b[3..];
    assert HexEncode(b[2..]) == HexByte(b[2]) + (HexByte(b[3]) + (HexByte(b[4]) + HexByte(b[5])));
    assert b[1..][1..] == b[2..];
    assert HexEncode(b[1..]) == HexByte(b[1]) + (HexByte(b[2]) + (HexByte(b[3]) + (HexByte(b[4]) + HexByte(b[5]))));
  }

  // ---------------------------------------------------------------------------
  // Uniqueness

  /** Two hosts of one interface with different ordinals differ in every address. */
  lemma HostAddressesDistinct(swIfIndex: nat, o1: nat, o2: nat)
    requires o1 != o2
    ensures HostMac(swIfIndex, o1) != HostMac(swIfIndex, o2)
    ensures HostIp4(swIfIndex, o1) != HostIp4(swIfIndex, o2)
    ensures HostIp6(swIfIndex, o1) != HostIp6(swIfIndex, o2)
  {
    var pm := "02:" + FormatHex(swIfIndex, 2) + ":00:00:ff:";
    assert HostMac(swIfIndex, o1)[|pm|..] == FormatHex(o1, 2);
    assert HostMac(swIfIndex, o2)[|pm|..] == FormatHex(o2, 2);
    if FormatHex(o1, 2) == FormatHex(o2, 2) {
      FormatHexInjective(o1, o2, 2);
    }
    var p4 := "172.16." + FormatDec(swIfIndex) + ".";
    assert HostIp4(swIfIndex, o1)[|p4|..] == FormatDec(o1);
    assert HostIp4(swIfIndex, o2)[|p4|..] == FormatDec(o2);
    if FormatDec(o1) == FormatDec(o2) {
      FormatDecInjective(o1, o2);
    }
    var p6 := "fd01:" + FormatHex(swIfIndex, 4) + "::";
    assert HostIp6(swIfIndex, o1)[|p6|..] == FormatHex(o1, 4);
    assert HostIp6(swIfIndex, o2)[|p6|..] == FormatHex(o2, 4);
    if FormatHex(o1, 4) == FormatHex(o2, 4) {
      FormatHexInjective(o1, o2, 4);
    }
  }

  /** No two generated hosts share a MAC, an IPv4 or an IPv6 address, whatever the index and count. */
  lemma DerivedHostsUnique(swIfIndex: nat, count: nat)
    ensures forall i, j | 0 <= i < j < count ::
      && DerivedHosts(swIfIndex, count)[i].mac != DerivedHosts(swIfIndex, count)[j].mac
      && DerivedHosts(swIfIndex, count)[i].ip4 != DerivedHosts(swIfIndex, count)[j].ip4
      && DerivedHosts(swIfIndex, count)[i].ip6 != DerivedHosts(swIfIndex, count)[j].ip6
  {
    forall i, j | 0 <= i < j < count
      ensures && DerivedHosts(swIfIndex, count)[i].mac != DerivedHosts(swIfIndex, count)[j].mac
              && DerivedHosts(swIfIndex, count)[i].ip4 != DerivedHosts(swIfIndex, count)[j].ip4
              && DerivedHosts(swIfIndex, count)[i].ip6 != DerivedHosts(swIfIndex, count)[j].ip6
    {
      assert DerivedHosts(swIfIndex, count)[i] == DeriveHost(swIfIndex, i + FirstOrdinal);
      assert DerivedHosts(swIfIndex, count)[j] == DeriveHost(swIfIndex, j + FirstOrdinal);
      HostAddressesDistinct(swIfIndex, i + FirstOrdinal, j + FirstOrdinal);
    }
  }

  lemma FormatDecOne()
    ensures FormatDec(1) == "1"
  {
  }

  /** The local IPv4 address is the ordinal-1 instance of the host format. */
  lemma LocalIp4IsOrdinalOne(swIfIndex: nat)
    ensures LocalIp4(swIfIndex) == HostIp4(swIfIndex, 1)
  {
    FormatDecOne();
  }

  /** No remote host (ordinal 2 and up) carries the interface's own IPv4 or IPv6 text. */
  lemma LocalNotRemote(swIfIndex: nat, ordinal: nat)
    requires ordinal >= FirstOrdinal
    ensures HostIp4(swIfIndex, ordinal) != LocalIp4(swIfIndex)
    ensures HostIp6(swIfIndex, ordinal) != LocalIp6(swIfIndex)
  {
    LocalIp4IsOrdinalOne(swIfIndex);
    HostAddressesDistinct(swIfIndex, ordinal, 1);
    FormatHexValue(ordinal, 4);
    var p6 := "fd01:" + FormatHex(swIfIndex, 4) + "::";
    assert |HostIp6(swIfIndex, ordinal)| == |p6| + |FormatHex(ordinal, 4)|;
    assert |LocalIp6(swIfIndex)| == |p6| + 1;
  }

  // ---------------------------------------------------------------------------
  // Binary forms of the derived text, and where they stop existing

  lemma FormatDecNoDot(n: nat)
    ensures '.' !in FormatDec(n)
  {
    FormatDecValue(n);
    DigitStringsExclude(FormatDec(n), 10, '.');
  }

  /** A `%u` field is an inet_pton octet exactly when the number is at most 255. */
  lemma FormatDecOctet(n: nat)
    ensures IsOctet(FormatDec(n)) <==> n <= 255
    ensures Value(FormatDec(n), 10) == n
  {
    FormatDecValue(n);
    if n > 0 {
      ToBaseNoLeadingZero(n, 10);
    }
  }

  lemma Literal172()
    ensures "172" == FormatDec(172) && "16" == FormatDec(16)
  {
    assert ToBase(17, 10) == ToBase(1, 10) + ['7'];
    assert ToBase(172, 10) == ToBase(17, 10) + ['2'];
    assert ToBase(16, 10) == ToBase(1, 10) + ['6'];
  }

  lemma HostIp4Fields(swIfIndex: nat, ordinal: nat)
    ensures Split(HostIp4(swIfIndex, ordinal), '.')
         == [FormatDec(172), FormatDec(16), FormatDec(swIfIndex), FormatDec(ordinal)]
  {
    Literal172();
    var parts := [FormatDec(172), FormatDec(16), FormatDec(swIfIndex), FormatDec(ordinal)];
    Join4(parts[0], parts[1], parts[2], parts[3], '.');
    assert Join(parts, '.') == HostIp4(swIfIndex, ordinal);
    forall i | 0 <= i < 4 ensures '.' !in parts[i] {
      FormatDecNoDot([172, 16, swIfIndex, ordinal][i]);
    }
    SplitJoin(parts, '.');
  }

  /** inet_pton accepts a host's IPv4 text exactly when index and ordinal fit in one octet,
      and then yields 172.16.index.ordinal. */
  lemma HostIp4Binary(swIfIndex: nat, ordinal: nat)
    ensures ParseIp4(HostIp4(swIfIndex, ordinal))
         == if swIfIndex <= 255 && ordinal <= 255 then Some(Ip4Bytes(swIfIndex, ordinal)) else None
  {
    HostIp4Fields(swIfIndex, ordinal);
    FormatDecOctet(172);
    FormatDecOctet(16);
    FormatDecOctet(swIfIndex);
    FormatDecOctet(ordinal);
  }

  /** The local IPv4 text converts to 172.16.index.1, and only while the index fits in one octet. */
  lemma LocalIp4Binary(swIfIndex: nat)
    ensures ParseIp4(LocalIp4(swIfIndex)) == if swIfIndex <= 255 then Some(Ip4Bytes(swIfIndex, 1)) else None
  {
    LocalIp4IsOrdinalOne(swIfIndex);
    HostIp4Binary(swIfIndex, 1);
  }

  lemma LiteralFd01()
    ensures "fd01" == FormatHex(0xfd01, 4)
    ensures "1" == ToBase(1, 16)
  {
    assert ToBase(0xfd, 16) == ToBase(0xf, 16) + ['d'];
    assert ToBase(0xfd0, 16) == ToBase(0xfd, 16) + ['0'];
    assert ToBase(0xfd01, 16) == ToBase(0xfd0, 16) + ['1'];
  }

  lemma HexFieldIsGroup(n: nat)
    ensures IsGroup(FormatHex(n, 4)) <==> n < 65536
    ensures Value(FormatHex(n, 4), 16) == n
    ensures ':' !in FormatHex(n, 4) && FormatHex(n, 4) != []
  {
    FormatHexValue(n, 4);
    assert Pow(16, 4) == 65536;
    if n < 65536 {
      FormatHexExactWidth(n, 4);
    } else {
      FormatHexOverflows(n, 4);
    }
    GroupNoColon(FormatHex(n, 4));
  }

  lemma Fd01Group()
    ensures IsGroup("fd01") && Value("fd01", 16) == 0xfd01
  {
    LiteralFd01();
    HexFieldIsGroup(0xfd01);
  }

  /** inet_pton accepts a host's IPv6 text exactly when index and ordinal fit in one group,
      and then yields fd01:index::ordinal. */
  lemma HostIp6Binary(swIfIndex: nat, ordinal: nat)
    ensures ParseIp6(HostIp6(swIfIndex, ordinal))
         == if swIfIndex < 65536 && ordinal < 65536 then Some(Ip6Bytes(swIfIndex, ordinal)) else None
  {
    var a, b, c := "fd01", FormatHex(swIfIndex, 4), FormatHex(ordinal, 4);
    Join4(a, b, "", c, ':');
    assert Join([a, b, "", c], ':') == HostIp6(swIfIndex, ordinal);
    Fd01Group();
    HexFieldIsGroup(swIfIndex);
    HexFieldIsGroup(ordinal);
    if swIfIndex < 65536 && ordinal < 65536 {
      ParseIp6Compressed(a, b, c);
    } else {
      ParseIp6CompressedRejects(a, b, c);
    }
  }

  /** The local IPv6 text converts to fd01:index::1 while the index fits in one group. */
  lemma LocalIp6Binary(swIfIndex: nat)
    ensures ParseIp6(LocalIp6(swIfIndex)) == if swIfIndex < 65536 then Some(Ip6Bytes(swIfIndex, 1)) else None
  {
    var a, b, c := "fd01", FormatHex(swIfIndex, 4), "1";
    Join4(a, b, "", c, ':');
    assert Join([a, b, "", c], ':') == LocalIp6(swIfIndex);
    Fd01Group();
    HexFieldIsGroup(swIfIndex);
    LiteralFd01();
    ToBaseValue(1, 16);
    if swIfIndex < 65536 {
      ParseIp6Compressed(a, b, c);
    } else {
      ParseIp6CompressedRejects(a, b, c);
    }
  }

  /** For an index and ordinal that fit in a byte, a host's MAC text is the text of the
      bytes 02:index:00:00:ff:ordinal. */
  lemma HostMacIsMacText(swIfIndex: byte, ordinal: byte)
    ensures HostMac(swIfIndex, ordinal) == MacText(HostMacBytes(swIfIndex, ordinal))
  {
    var b := HostMacBytes(swIfIndex, ordinal);
    var parts := seq(6, i requires 0 <= i < 6 => HexByte(b[i]));
    FormatHexByte(swIfIndex);
    FormatHexByte(ordinal);
    assert parts == ["02", FormatHex(swIfIndex, 2), "00", "00", "ff", FormatHex(ordinal, 2)];
    Join6(parts[0], parts[1], parts[2], parts[3], parts[4], parts[5], ':');
  }

  /** The MAC decoding of `configure_extend_ipv4_mac_binding` turns a derived MAC into 02:index:00:00:ff:ordinal while both fit in a byte. */
  lemma HostMacBinary(swIfIndex: byte, ordinal: byte)
    ensures MacBytesOf(HostMac(swIfIndex, ordinal)) == Some(HostMacBytes(swIfIndex, ordinal))
  {
    HostMacIsMacText(swIfIndex, ordinal);
    MacTextRoundTrip(HostMacBytes(swIfIndex, ordinal));
  }

  lemma ThreeHexDigits(n: nat)
    requires 256 <= n < 4096
    ensures |FormatHex(n, 2)| == 3
    ensures ':' !in FormatHex(n, 2)
  {
    assert Pow(16, 3) == 4096 && Pow(16, 2) == 256;
    ToBaseLength(n, 16, 3);
    FormatHexOverflows(n, 2);
    FormatHexValue(n, 2);
    GroupNoColon(FormatHex(n, 2));
  }

  /** Past 255 the `%02x` field of the ordinal grows to three digits, the colon-free text has odd
      length and decoding fails: this is where the 254-host limit comes from. */
  lemma HostMacOverflow(swIfIndex: byte, ordinal: nat)
    requires 256 <= ordinal < 4096
    ensures |RemoveAll(HostMac(swIfIndex, ordinal), ':')| == 13
    ensures MacBytesOf(HostMac(swIfIndex, ordinal)) == None
  {
    var h, t := FormatHex(swIfIndex, 2), FormatHex(ordinal, 2);
    FormatHexByte(swIfIndex);
    ThreeHexDigits(ordinal);
    var parts := ["02", h, "00", "00", "ff", t];
    Join6(parts[0], parts[1], parts[2], parts[3], parts[4], parts[5], ':');
    assert Join(parts, ':') == HostMac(swIfIndex, ordinal);
    forall i | 0 <= i < 6 ensures ':' !in parts[i] {
    }
    RemoveAllJoin(parts, ':');
    FlattenSix(parts);
    assert |Flatten(parts)| == 13;
  }

  /** An example: index 3, ordinal 2, with the local address of index 3. */
  lemma DerivationExample()
    ensures HostMac(3, 2) == "02:03:00:00:ff:02"
    ensures HostIp4(3, 2) == "172.16.3.2"
    ensures HostIp6(3, 2) == "fd01:0003::0002"
    ensures LocalIp4(3) == "172.16.3.1"
    ensures LocalIp6(3) == "fd01:0003::1"
  {
    FormatHexByte(3);
    FormatHexByte(2);
    assert FormatHex(3, 4) == "0003";
    assert FormatHex(2, 4) == "0002";
  }
}

=== FILE: inet.dfy ===
/** The text-to-binary address conversion `socket.inet_pton` performs on the
    addresses the interface code derives: dotted-decimal IPv4, and IPv6 written
    as eight groups or with one interior "::". */
module Inet {
  import opened Wrappers
  import opened Seqs
  import opened Text

  /** One dotted-decimal field as inet_pton accepts it: decimal digits only, no
      leading zero unless the field is "0", value at most 255. */
  predicate IsOctet(p: string)
  {
    && |p| >= 1
    && IsDigits(p, 10)
    && (|p| == 1 || p[0] != '0')
    && Value(p, 10) <= 255
  }

  /** `inet_pton(AF_INET, s)`: exactly four fields separated by '.', each an octet. */
  function ParseIp4(s: string): Option<seq<byte>>
  {
    var parts := Split(s, '.');
    if |parts| == 4 && IsOctet(parts[0]) && IsOctet(parts[1]) && IsOctet(parts[2]) && IsOctet(parts[3]) then
      Some([Value(parts[0], 10), Value(parts[1], 10), Value(parts[2], 10), Value(parts[3], 10)])
    else
      None
  }

  /** The dotted-decimal text of four bytes, `"%u.%u.%u.%u"`. */
  function FormatIp4(b: seq<byte>): string
    requires |b| == 4
  {
    Join([FormatDec(b[0]), FormatDec(b[1]), FormatDec(b[2]), FormatDec(b[3])], '.')
  }

  lemma FormatDecIsOctet(x: byte)
    ensures IsOctet(FormatDec(x))
    ensures '.' !in FormatDec(x)
  {
    FormatDecValue(x);
    if x > 0 {
      ToBaseNoLeadingZero(x, 10);
    } else {
      assert FormatDec(x) == ['0'];
    }
  }

  lemma {:induction false} ValuePositive(s: string, base: nat)
    requires |s| >= 1 && base >= 1
    requires DigitVal(s[0]) >= 1
    ensures Value(s, base) >= 1
    decreases |s|
  {
    if |s| > 1 {
      ValuePositive(s[..|s| - 1], base);
      assert Value(s, base) >= Value(s[..|s| - 1], base) * base;
    }
  }

  /** An octet field is the `%u` text of its own value: the decimal form is canonical. */
  lemma {:induction false} OctetCanonical(p: string)
    requires |p| >= 1 && IsDigits(p, 10) && (|p| == 1 || p[0] != '0')
    ensures FormatDec(Value(p, 10)) == p
    decreases |p|
  {
    var n := Value(p, 10);
    var init, c := p[..|p| - 1], p[|p| - 1];
    assert init + [c] == p;
    assert n == Value(init, 10) * 10 + DigitVal(c);
    if |p| == 1 {
      assert init == [];
    } else {
      assert init[0] == p[0];
      ValuePositive(init, 10);
      OctetCanonical(init);
      assert n / 10 == Value(init, 10) && n % 10 == DigitVal(c);
    }
  }

  /** inet_pton reads back every dotted-decimal text of four bytes. */
  lemma ParseFormatIp4(b: seq<byte>)
    requires |b| == 4
    ensures ParseIp4(FormatIp4(b)) == Some(b)
  {
    var parts := [FormatDec(b[0]), FormatDec(b[1]), FormatDec(b[2]), FormatDec(b[3])];
    forall i | 0 <= i < 4
      ensures IsOctet(parts[i]) && '.' !in parts[i] && Value(parts[i], 10) == b[i]
    {
      FormatDecIsOctet(b[i]);
      FormatDecValue(b[i]);
    }
    SplitJoin(parts, '.');
    assert b == [b[0], b[1], b[2], b[3]];
  }

  /** ... and accepts nothing else: the only text that parses to b is its canonical form. */
  lemma ParseIp4Canonical(s: string)
    requires ParseIp4(s).Some?
    ensures s == FormatIp4(ParseIp4(s).value)
  {
    var parts := Split(s, '.');
    var b := ParseIp4(s).value;
    forall i | 0 <= i < 4
      ensures FormatDec(b[i]) == parts[i]
    {
      OctetCanonical(parts[i]);
    }
    assert parts == [parts[0], parts[1], parts[2], parts[3]];
  }

  /** One IPv6 group: one to four hexadecimal digits of either case. */
  predicate IsGroup(g: string)
  {
    1 <= |g| <= 4 && IsDigits(g, 16)
  }

  /** Sixteen-bit group values, each written as two bytes in network order. */
  function GroupsBytes(vs: seq<nat>): (b: seq<byte>)
    ensures |b| == 2 * |vs|
  {
    if vs == [] then [] else [(vs[0] / 256) % 256, vs[0] % 256] + GroupsBytes(vs[1..])
  }

  function GroupValues(gs: seq<string>): (vs: seq<nat>)
    ensures |vs| == |gs|
  {
    seq(|gs|, i requires 0 <= i < |gs| => Value(gs[i], 16))
  }

  /** The bytes of a run of groups; an error as soon as one is not a group. */
  function GroupsToBytes(gs: seq<string>): (r: Option<seq<byte>>)
    ensures r.Some? <==> forall i | 0 <= i < |gs| :: IsGroup(gs[i])
    ensures r.Some? ==> r.value == GroupsBytes(GroupValues(gs))
  {
    if gs == [] then Some([])
    else if IsGroup(gs[0]) then
      match GroupsToBytes(gs[1..])
      case None => None
      case Some(rest) =>
        assert GroupValues(gs)[1..] == GroupValues(gs[1..]);
        Some([(Value(gs[0], 16) / 256) % 256, Value(gs[0], 16) % 256] + rest)
    else None
  }

  /** The index of the first empty group, or |gs| if there is none. */
  function FirstEmpty(gs: seq<string>): (k: nat)
    ensures k <= |gs|
    ensures forall i | 0 <= i < k :: gs[i] != []
    ensures k < |gs| ==> gs[k] == []
  {
    if gs == [] then 0 else if gs[0] == [] then 0 else 1 + FirstEmpty(gs[1..])
  }

  /** `inet_pton(AF_INET6, s)` for the two forms the interface code produces: eight
      groups, or one interior "::" standing for one or more zero groups. */
  function ParseIp6(s: string): Option<seq<byte>>
  {
    var g := Split(s, ':');
    var k := FirstEmpty(g);
    if k == |g| then
      if |g| == 8 then GroupsToBytes(g) else None
    else if 0 < k < |g| - 1 && |g| <= 8 && (forall i | k < i < |g| :: g[i] != []) then
      GroupsToBytes(g[..k] + seq(9 - |g|, _ => "0") + g[k + 1..])
    else
      None
  }

  lemma GroupNoColon(g: string)
    requires IsDigits(g, 16)
    ensures ':' !in g
  {
    DigitStringsExclude(g, 16, ':');
  }

  /** The full eight-group form `"%04x:…:%04x"` reads back as its groups. */
  lemma ParseIp6Full(vs: seq<nat>)
    requires |vs| == 8
    requires forall i | 0 <= i < 8 :: vs[i] < 65536
    ensures ParseIp6(Join(seq(8, i requires 0 <= i < 8 => FormatHex(vs[i], 4)), ':')) == Some(GroupsBytes(vs))
  {
    var gs := seq(8, i requires 0 <= i < 8 => FormatHex(vs[i], 4));
    forall i | 0 <= i < 8
      ensures IsGroup(gs[i]) && ':' !in gs[i] && gs[i] != [] && Value(gs[i], 16) == vs[i]
    {
      FormatHexValue(vs[i], 4);
      assert Pow(16, 4) == 65536;
      FormatHexExactWidth(vs[i], 4);
      GroupNoColon(gs[i]);
    }
    SplitJoin(gs, ':');
    assert GroupValues(gs) == vs;
  }

  /** The compressed form `a:b::c` stands for a, b, five zero groups, then c. */
  lemma ParseIp6Compressed(a: string, b: string, c: string)
    requires IsGroup(a) && IsGroup(b) && IsGroup(c)
    ensures ParseIp6(Join([a, b, "", c], ':'))
         == Some(GroupsBytes([Value(a, 16), Value(b, 16), 0, 0, 0, 0, 0, Value(c, 16)]))
  {
    var g := [a, b, "", c];
    GroupNoColon(a);
    GroupNoColon(b);
    GroupNoColon(c);
    SplitJoin(g, ':');
    assert FirstEmpty(g) == 2 by {
      assert FirstEmpty(g[2..]) == 0;
      assert g[1..][1..] == g[2..];
    }
    var expanded := g[..2] + seq(5, _ => "0") + g[3..];
    assert expanded == [a, b, "0", "0", "0", "0", "0", c];
    assert Value("0", 16) == 0 by {
      assert "0"[..0] == [];
    }
    assert GroupValues(expanded) == [Value(a, 16), Value(b, 16), 0, 0, 0, 0, 0, Value(c, 16)];
  }

  /** In the compressed form, a field that is not a group (five digits, say) makes
      inet_pton fail. */
  lemma ParseIp6CompressedRejects(a: string, b: string, c: string)
    requires ':' !in a && ':' !in b && ':' !in c
    requires a != [] && b != [] && c != []
    requires !IsGroup(a) || !IsGroup(b) || !IsGroup(c)
    ensures ParseIp6(Join([a, b, "", c], ':')) == None
  {
    var g := [a, b, "", c];
    SplitJoin(g, ':');
    assert FirstEmpty(g) == 2 by {
      assert FirstEmpty(g[2..]) == 0;
      assert g[1..][1..] == g[2..];
    }
    var expanded := g[..2] + seq(5, _ => "0") + g[3..];
    assert expanded == [a, b, "0", "0", "0", "0", "0", c];
    assert !IsGroup(expanded[0]) || !IsGroup(expanded[1]) || !IsGroup(expanded[7]);
  }
}

=== FILE: interface.dfy ===
/** The interface record: what `post_init_setup` builds from an interface index
    and the interface dump, the address accessors, host regeneration, the
    `remote_hosts` setter and sub-interface registration. */
module VppInterface {
  import opened Wrappers
  import opened Text
  import opened Inet
  import opened Identity
  import opened HostIndex
  import opened Vapi
  import opened Errors
  import opened Discovery

  /** A constructed interface. Sub-interfaces are referred to by their index. */
  datatype Interface = Interface(
    swIfIndex: nat,
    table: HostTable,
    localIp4: string,
    localIp4n: seq<byte>,
    localIp6: string,
    localIp6n: seq<byte>,
    name: seq<byte>,
    localMac: string,
    dump: DumpEntry,
    subInterfaces: seq<nat>)

  /** The interface's own addresses: the index fits in one byte, and the local texts and
      their binary forms are the derived ones. Nothing that replaces the hosts touches this. */
  ghost predicate LocalIdentity(intf: Interface)
  {
    && intf.swIfIndex <= 255
    && intf.localIp4 == LocalIp4(intf.swIfIndex)
    && intf.localIp4n == Ip4Bytes(intf.swIfIndex, 1)
    && intf.localIp6 == LocalIp6(intf.swIfIndex)
    && intf.localIp6n == Ip6Bytes(intf.swIfIndex, 1)
  }

  /** The hosts are the derived ones, from ordinal 2 on, with exact dictionaries. */
  ghost predicate HostsDerived(intf: Interface)
  {
    && intf.table.hosts == DerivedHosts(intf.swIfIndex, |intf.table.hosts|)
    && Consistent(intf.table)
  }

  /** The discovered fields come from a dump entry for this index. */
  ghost predicate FromDump(intf: Interface)
  {
    && intf.dump.swIfIndex == intf.swIfIndex
    && intf.name == TrimAtNul(intf.dump.interfaceName)
    && intf.localMac == RenderL2Address(intf.dump.l2Address)
  }

  /** What holds of every interface `post_init_setup` returns. */
  ghost predicate Valid(intf: Interface)
  {
    LocalIdentity(intf) && HostsDerived(intf) && FromDump(intf)
  }

  /** `post_init_setup`: generate one remote host, derive the local addresses and convert
      them with inet_pton (which rejects an index above 255 in the IPv4 text), then take
      name, local MAC and dump from the first dump entry for the index, or fail naming the
      index and the dump. */
  method PostInitSetup(swIfIndex: nat, dump: seq<DumpEntry>) returns (r: Result<Interface, Error>)
    ensures swIfIndex > 255 ==> r == Failure(AddressError)
    ensures swIfIndex <= 255 && (forall k | 0 <= k < |dump| :: dump[k].swIfIndex != swIfIndex)
            ==> r == Failure(InterfaceNotFound(swIfIndex, dump))
    ensures r.Success? <==> swIfIndex <= 255 && exists k | 0 <= k < |dump| :: dump[k].swIfIndex == swIfIndex
    ensures r.Success? ==> && Valid(r.value)
                           && r.value.swIfIndex == swIfIndex
                           && |r.value.table.hosts| == 1
                           && r.value.subInterfaces == []
                           && exists k: nat :: IsFirstMatch(dump, swIfIndex, k) && r.value.dump == dump[k]
  {
    var table := GenerateRemoteHosts(swIfIndex, 1);
    var localIp4 := LocalIp4(swIfIndex);
    LocalIp4Binary(swIfIndex);
    var localIp4n := ParseIp4(localIp4);
    if localIp4n.None? {
      return Failure(AddressError);
    }
    var localIp6 := LocalIp6(swIfIndex);
    LocalIp6Binary(swIfIndex);
    // The IPv6 conversion cannot fail here: an index that passed the IPv4 one is below 256.
    var localIp6n := ParseIp6(localIp6).value;
    var found := Reconcile(dump, swIfIndex);
    match found
    case Failure(e) =>
      r := Failure(e);
    case Success(d) =>
      r := Success(Interface(swIfIndex, table, localIp4, localIp4n.value, localIp6, localIp6n,
                             d.name, d.localMac, d.dump, []));
  }

  /** `remote_mac`: the first host's MAC, an IndexError when there are no hosts. */
  function RemoteMac(intf: Interface): (r: Result<string, Error>)
    ensures r.Failure? <==> intf.table.hosts == []
    ensures r.Failure? ==> r.error == IndexError
    ensures HostsDerived(intf) && r.Success? ==> r.value == HostMac(intf.swIfIndex, FirstOrdinal)
  {
    if intf.table.hosts == [] then Failure(IndexError)
    else
      assert HostsDerived(intf) ==> intf.table.hosts[0] == DeriveHost(intf.swIfIndex, FirstOrdinal);
      Success(intf.table.hosts[0].mac)
  }

  /** `remote_ip4`: the first host's IPv4 text. */
  function RemoteIp4(intf: Interface): (r: Result<string, Error>)
    ensures r.Failure? <==> intf.table.hosts == []
    ensures r.Failure? ==> r.error == IndexError
    ensures HostsDerived(intf) && r.Success? ==> r.value == HostIp4(intf.swIfIndex, FirstOrdinal)
  {
    if intf.table.hosts == [] then Failure(IndexError)
    else
      assert HostsDerived(intf) ==> intf.table.hosts[0] == DeriveHost(intf.swIfIndex, FirstOrdinal);
      Success(intf.table.hosts[0].ip4)
  }

  /** `remote_ip6`: the first host's IPv6 text. */
  function RemoteIp6(intf: Interface): (r: Result<string, Error>)
    ensures r.Failure? <==> intf.table.hosts == []
    ensures r.Failure? ==> r.error == IndexError
    ensures HostsDerived(intf) && r.Success? ==> r.value == HostIp6(intf.swIfIndex, FirstOrdinal)
  {
    if intf.table.hosts == [] then Failure(IndexError)
    else
      assert HostsDerived(intf) ==> intf.table.hosts[0] == DeriveHost(intf.swIfIndex, FirstOrdinal);
      Success(intf.table.hosts[0].ip6)
  }

  /** `remote_ip4n`: inet_pton of `remote_ip4`. For any first host the bytes are those whose
      dotted text is that host's `ip4`; for the derived hosts they are 172.16.index.2. */
  function RemoteIp4n(intf: Interface): (r: Result<seq<byte>, Error>)
    ensures intf.table.hosts == [] ==> r == Failure(IndexError)
    ensures intf.table.hosts != [] ==> (r.Success? <==> ParseIp4(intf.table.hosts[0].ip4).Some?)
    ensures r.Success? ==> |r.value| == 4 && FormatIp4(r.value) == intf.table.hosts[0].ip4
    ensures r.Failure? ==> r.error == (if intf.table.hosts == [] then IndexError else AddressError)
    ensures HostsDerived(intf) && intf.table.hosts != [] ==>
              r == if intf.swIfIndex <= 255 then Success(Ip4Bytes(intf.swIfIndex, FirstOrdinal)) else Failure(AddressError)
  {
    match RemoteIp4(intf)
    case Failure(e) => Failure(e)
    case Success(text) =>
      HostIp4Binary(intf.swIfIndex, FirstOrdinal);
      match ParseIp4(text)
      case None => Failure(AddressError)
      case Some(b) =>
        ParseIp4Canonical(text);
        Success(b)
  }

  /** `remote_ip6n`: inet_pton of `remote_ip6`. For any first host it succeeds exactly when
      that host's `ip6` converts; for the derived hosts the bytes are those of fd01:index::2. */
  function RemoteIp6n(intf: Interface): (r: Result<seq<byte>, Error>)
    ensures intf.table.hosts == [] ==> r == Failure(IndexError)
    ensures intf.table.hosts != [] ==> (r.Success? <==> ParseIp6(intf.table.hosts[0].ip6).Some?)
    ensures r.Failure? ==> r.error == (if intf.table.hosts == [] then IndexError else AddressError)
    ensures HostsDerived(intf) && intf.table.hosts != [] ==>
              r == if intf.swIfIndex < 65536 then Success(Ip6Bytes(intf.swIfIndex, FirstOrdinal)) else Failure(AddressError)
  {
    match RemoteIp6(intf)
    case Failure(e) => Failure(e)
    case Success(text) =>
      HostIp6Binary(intf.swIfIndex, FirstOrdinal);
      match ParseIp6(text)
      case None => Failure(AddressError)
      case Some(b) => Success(b)
  }

  /** `local_ip4n`: converts `local_ip4` again. The bytes are always those whose dotted text
      is `local_ip4`; with the derived local addresses they are the value stored at
      construction, 172.16.index.1. The hosts play no part. */
  function LocalIp4n(intf: Interface): (r: Result<seq<byte>, Error>)
    ensures r.Success? <==> ParseIp4(intf.localIp4).Some?
    ensures r.Success? ==> |r.value| == 4 && FormatIp4(r.value) == intf.localIp4
    ensures r.Failure? ==> r.error == AddressError
    ensures LocalIdentity(intf) ==> r == Success(intf.localIp4n) && intf.localIp4n == Ip4Bytes(intf.swIfIndex, 1)
  {
    LocalIp4Binary(intf.swIfIndex);
    match ParseIp4(intf.localIp4)
    case None => Failure(AddressError)
    case Some(b) =>
      ParseIp4Canonical(intf.localIp4);
      Success(b)
  }

  /** `local_ip6n`: converts `local_ip6` again; with the derived local addresses this is the
      stored value, fd01:index::1. The hosts play no part. */
  function LocalIp6n(intf: Interface): (r: Result<seq<byte>, Error>)
    ensures r.Success? <==> ParseIp6(intf.localIp6).Some?
    ensures r.Failure? ==> r.error == AddressError
    ensures LocalIdentity(intf) ==> r == Success(intf.localIp6n) && intf.localIp6n == Ip6Bytes(intf.swIfIndex, 1)
  {
    LocalIp6Binary(intf.swIfIndex);
    match ParseIp6(intf.localIp6)
    case None => Failure(AddressError)
    case Some(b) => Success(b)
  }

  /** No remote host's IPv4 or IPv6 text on a constructed interface is its local one. */
  lemma RemotesAvoidLocal(intf: Interface, h: Host)
    requires Valid(intf)
    requires h in intf.table.hosts
    ensures h.ip4 != intf.localIp4 && h.ip6 != intf.localIp6
  {
    var k :| 0 <= k < |intf.table.hosts| && intf.table.hosts[k] == h;
    assert intf.table.hosts == DerivedHosts(intf.swIfIndex, |intf.table.hosts|);
    assert h == DeriveHost(intf.swIfIndex, k + FirstOrdinal);
    LocalNotRemote(intf.swIfIndex, k + FirstOrdinal);
  }

  /** `generate_remote_hosts(count)` on a constructed interface: the host list and all three
      dictionaries are replaced together, nothing else changes, and validity is kept. */
  method Regenerate(intf: Interface, count: nat) returns (r: Interface)
    ensures r.table.hosts == DerivedHosts(intf.swIfIndex, count)
    ensures Consistent(r.table)
    ensures r.(table := intf.table) == intf
    ensures LocalIdentity(intf) ==> LocalIdentity(r)
    ensures Valid(intf) ==> Valid(r)
  {
    var table := GenerateRemoteHosts(intf.swIfIndex, count);
    r := intf.(table := table);
  }

  /** The `remote_hosts` setter as written: it replaces the list and leaves the dictionaries
      as they were (the TODO at the setter). */
  function SetRemoteHostsAsWritten(intf: Interface, hosts: seq<Host>): (r: Interface)
    ensures r.table.hosts == hosts
    ensures r.table.(hosts := intf.table.hosts) == intf.table
    ensures r.(table := intf.table) == intf
    ensures LocalIdentity(intf) ==> LocalIdentity(r)
  {
    intf.(table := intf.table.(hosts := hosts))
  }

  /** After the setter as written, a lookup still finds the old first host although the list
      is empty: the dictionaries are stale and the table is no longer consistent. */
  lemma SetterLeavesStaleIndex(intf: Interface)
    requires Valid(intf)
    requires intf.table.hosts != []
    ensures !Consistent(SetRemoteHostsAsWritten(intf, []).table)
    ensures HostBy(SetRemoteHostsAsWritten(intf, []).table, ByMac, intf.table.hosts[0].mac)
         == Success(intf.table.hosts[0])
  {
    var h := intf.table.hosts[0];
    assert h in intf.table.hosts;
    assert h.mac in SetRemoteHostsAsWritten(intf, []).table.byMac;
  }

  /** The setter with the dictionaries rebuilt from the new list, as the generator does:
      no key of the old list survives, and with distinct addresses the table is consistent. */
  function SetRemoteHosts(intf: Interface, hosts: seq<Host>): (r: Interface)
    ensures r.table.hosts == hosts
    ensures forall kind: Kind :: r.table.Index(kind).Keys == KeySet(hosts, kind)
    ensures KeysUnique(hosts, ByMac) && KeysUnique(hosts, ByIp4) && KeysUnique(hosts, ByIp6)
            ==> Consistent(r.table)
    ensures r.(table := intf.table) == intf
    ensures LocalIdentity(intf) ==> LocalIdentity(r)
  {
    BuildIndexExactWhenUnique(hosts);
    intf.(table := HostTable(hosts, BuildIndex(hosts, ByMac), BuildIndex(hosts, ByIp4), BuildIndex(hosts, ByIp6)))
  }

  lemma BuildIndexExactWhenUnique(hosts: seq<Host>)
    ensures KeysUnique(hosts, ByMac) ==> Indexes(hosts, BuildIndex(hosts, ByMac), ByMac)
    ensures KeysUnique(hosts, ByIp4) ==> Indexes(hosts, BuildIndex(hosts, ByIp4), ByIp4)
    ensures KeysUnique(hosts, ByIp6) ==> Indexes(hosts, BuildIndex(hosts, ByIp6), ByIp6)
  {
    if KeysUnique(hosts, ByMac) {
      BuildIndexExact(hosts, ByMac);
    }
    if KeysUnique(hosts, ByIp4) {
      BuildIndexExact(hosts, ByIp4);
    }
    if KeysUnique(hosts, ByIp6) {
      BuildIndexExact(hosts, ByIp6);
    }
  }

  // ---------------------------------------------------------------------------
  // Sub-interface registration

  /** The `sub_if` attribute as `add_sub_if` leaves it: absent, one value, or a list. */
  datatype SubIfSlot = One(child: nat) | Many(children: seq<nat>)

  /** The sub-interfaces a slot records, in registration order. */
  function Registered(slot: Option<SubIfSlot>): seq<nat>
  {
    match slot
    case None => []
    case Some(One(c)) => [c]
    case Some(Many(cs)) => cs
  }

  /** `add_sub_if` as written: the new sub-interface is always recorded last, but only a
      slot that already holds a list keeps what it recorded; any other slot ends up
      recording the new sub-interface alone, losing an earlier one. */
  function AddSubIfAsWritten(slot: Option<SubIfSlot>, child: nat): (r: Option<SubIfSlot>)
    ensures |Registered(r)| >= 1 && Registered(r)[|Registered(r)| - 1] == child
    ensures slot.Some? && slot.value.Many? ==> Registered(r) == Registered(slot) + [child]
    ensures !(slot.Some? && slot.value.Many?) ==> Registered(r) == [child]
    ensures |Registered(r)| == |Registered(slot)| + 1 <==> !(slot.Some? && slot.value.One?)
  {
    match slot
    case None => Some(One(child))
    case Some(Many(children)) => Some(Many(children + [child]))
    case Some(One(_)) => Some(One(child))
  }

  function RegisterAllAsWritten(slot: Option<SubIfSlot>, children: seq<nat>): Option<SubIfSlot>
    decreases |children|
  {
    if children == [] then slot
    else RegisterAllAsWritten(AddSubIfAsWritten(slot, children[0]), children[1..])
  }

  /** Registered one at a time on a fresh interface, only the last sub-interface is kept. */
  lemma {:induction false} AsWrittenKeepsOnlyLast(slot: Option<SubIfSlot>, children: seq<nat>)
    requires slot.None? || slot.value.One?
    requires children != []
    ensures RegisterAllAsWritten(slot, children) == Some(One(children[|children| - 1]))
    decreases |children|
  {
    if |children| > 1 {
      AsWrittenKeepsOnlyLast(AddSubIfAsWritten(slot, children[0]), children[1..]);
    }
  }

  /** Sub-interface registration kept as one ordered list from the start. */
  function AddSubIf(intf: Interface, child: nat): (r: Interface)
    ensures |r.subInterfaces| == |intf.subInterfaces| + 1
    ensures r.subInterfaces[..|intf.subInterfaces|] == intf.subInterfaces
    ensures r.subInterfaces[|intf.subInterfaces|..] == [child]
    ensures r.(subInterfaces := intf.subInterfaces) == intf
    ensures Valid(intf) ==> Valid(r)
  {
    intf.(subInterfaces := intf.subInterfaces + [child])
  }

  function RegisterAll(intf: Interface, children: seq<nat>): Interface
    decreases |children|
  {
    if children == [] then intf else RegisterAll(AddSubIf(intf, children[0]), children[1..])
  }

  /** Registering sub-interfaces one at a time keeps every one of them, in order. */
  lemma {:induction false} RegisterAllKeepsAll(intf: Interface, children: seq<nat>)
    ensures RegisterAll(intf, children).subInterfaces == intf.subInterfaces + children
    ensures RegisterAll(intf, children).(subInterfaces := intf.subInterfaces) == intf
    decreases |children|
  {
    if children != [] {
      RegisterAllKeepsAll(AddSubIf(intf, children[0]), children[1..]);
      assert [children[0]] + children[1..] == children;
    }
  }
}

=== FILE: seqs.dfy ===
/** Sequence helpers that stand for the Python string operations the interface
    code uses: `sep.join`, `str.split`, `str.replace(c, "")` and clamped slicing. */
module Seqs {

  /** `sep.join(parts)` for a one-element separator. */
  function Join<T>(parts: seq<seq<T>>, sep: T): seq<T>
  {
    if |parts| == 0 then []
    else if |parts| == 1 then parts[0]
    else parts[0] + [sep] + Join(parts[1..], sep)
  }

  /** `s.split(sep)` for a one-element separator: the runs between separators,
      including empty runs, so that there is always at least one part. */
  function Split<T(==)>(s: seq<T>, sep: T): (parts: seq<seq<T>>)
    ensures |parts| >= 1
    ensures forall i | 0 <= i < |parts| :: sep !in parts[i]
    ensures Join(parts, sep) == s
    decreases |s|
  {
    if s == [] then [[]]
    else
      var rest := Split(s[1..], sep);
      if s[0] == sep then
        assert ([[]] + rest)[1..] == rest;
        [[]] + rest
      else
        var parts := [[s[0]] + rest[0]] + rest[1..];
        assert parts[1..] == rest[1..];
        assert |rest| > 1 ==> Join(rest, sep) == rest[0] + [sep] + Join(rest[1..], sep);
        parts
  }

  /** Every element of every part, in order. */
  function Flatten<T>(parts: seq<seq<T>>): seq<T>
  {
    if parts == [] then [] else parts[0] + Flatten(parts[1..])
  }

  /** `s.replace(x, "")` for a one-element x. */
  function RemoveAll<T(==)>(s: seq<T>, x: T): (r: seq<T>)
    ensures x !in r
    ensures forall y | y in r :: y in s
  {
    if s == [] then []
    else if s[0] == x then RemoveAll(s[1..], x)
    else [s[0]] + RemoveAll(s[1..], x)
  }

  function Min(a: int, b: int): int { if a <= b then a else b }

  /** `s[lo:hi]` on a Python string: both bounds are clamped to the length. */
  function Slice<T>(s: seq<T>, lo: nat, hi: nat): seq<T>
    requires lo <= hi
  {
    s[Min(lo, |s|)..Min(hi, |s|)]
  }

  lemma {:induction false} SplitNoSep<T>(a: seq<T>, sep: T)
    requires sep !in a
    ensures Split(a, sep) == [a]
    decreases |a|
  {
    if a != [] {
      SplitNoSep(a[1..], sep);
      assert [a[0]] + a[1..] == a;
    }
  }

  /** Splitting at the first separator peels off the run before it. */
  lemma {:induction false} SplitCons<T>(a: seq<T>, sep: T, b: seq<T>)
    requires sep !in a
    ensures Split(a + [sep] + b, sep) == [a] + Split(b, sep)
    decreases |a|
  {
    var s := a + [sep] + b;
    if a == [] {
      assert s[1..] == b;
    } else {
      assert s[1..] == a[1..] + [sep] + b;
      SplitCons(a[1..], sep, b);
      assert [a[0]] + a[1..] == a;
    }
  }

  /** Split undoes Join when no part contains the separator. */
  lemma {:induction false} SplitJoin<T>(parts: seq<seq<T>>, sep: T)
    requires |parts| >= 1
    requires forall i | 0 <= i < |parts| :: sep !in parts[i]
    ensures Split(Join(parts, sep), sep) == parts
    decreases |parts|
  {
    if |parts| == 1 {
      SplitNoSep(parts[0], sep);
    } else {
      SplitCons(parts[0], sep, Join(parts[1..], sep));
      SplitJoin(parts[1..], sep);
      assert [parts[0]] + parts[1..] == parts;
    }
  }

  lemma {:induction false} RemoveAllAppend<T>(a: seq<T>, b: seq<T>, x: T)
    ensures RemoveAll(a + b, x) == RemoveAll(a, x) + RemoveAll(b, x)
    decreases |a|
  {
    if a == [] {
      assert a + b == b;
    } else {
      assert (a + b)[1..] == a[1..] + b;
      RemoveAllAppend(a[1..], b, x);
    }
  }

  lemma {:induction false} RemoveAllAbsent<T>(a: seq<T>, x: T)
    requires x !in a
    ensures RemoveAll(a, x) == a
    decreases |a|
  {
    if a != [] {
      RemoveAllAbsent(a[1..], x);
      assert [a[0]] + a[1..] == a;
    }
  }

  /** Deleting the separator from a joined string leaves the parts run together. */
  lemma {:induction false} RemoveAllJoin<T>(parts: seq<seq<T>>, sep: T)
    requires forall i | 0 <= i < |parts| :: sep !in parts[i]
    ensures RemoveAll(Join(parts, sep), sep) == Flatten(parts)
    decreases |parts|
  {
    if |parts| == 1 {
      RemoveAllAbsent(parts[0], sep);
      assert Flatten(parts) == parts[0] + Flatten(parts[1..]);
      assert parts[1..] == [];
    } else if |parts| > 1 {
      RemoveAllJoin(parts[1..], sep);
      RemoveAllAppend(parts[0] + [sep], Join(parts[1..], sep), sep);
      RemoveAllAppend(parts[0], [sep], sep);
      RemoveAllAbsent(parts[0], sep);
      assert RemoveAll([sep], sep) == [];
    }
  }

  lemma {:induction false} FlattenAppend<T>(parts: seq<seq<T>>, last: seq<T>)
    ensures Flatten(parts + [last]) == Flatten(parts) + last
    decreases |parts|
  {
    if parts == [] {
      assert ([] + [last])[1..] == [];
    } else {
      assert (parts + [last])[1..] == parts[1..] + [last];
      FlattenAppend(parts[1..], last);
    }
  }

  /** Consecutive two-element slices `s[0:2], s[2:4], …` run together give back a prefix of s. */
  lemma {:induction false} FlattenPairSlices<T>(s: seq<T>, n: nat)
    ensures Flatten(seq(n, i requires 0 <= i => Slice(s, 2 * i, 2 * i + 2))) == s[..Min(2 * n, |s|)]
    decreases n
  {
    var pieces := seq(n, i requires 0 <= i => Slice(s, 2 * i, 2 * i + 2));
    if n == 0 {
      assert pieces == [];
    } else {
      var front := seq(n - 1, i requires 0 <= i => Slice(s, 2 * i, 2 * i + 2));
      assert pieces == front + [Slice(s, 2 * (n - 1), 2 * (n - 1) + 2)];
      FlattenPairSlices(s, n - 1);
      FlattenAppend(front, Slice(s, 2 * (n - 1), 2 * (n - 1) + 2));
      assert s[..Min(2 * (n - 1), |s|)] + s[Min(2 * (n - 1), |s|)..Min(2 * n, |s|)] == s[..Min(2 * n, |s|)];
    }
  }

  lemma Join4<T>(a: seq<T>, b: seq<T>, c: seq<T>, d: seq<T>, sep: T)
    ensures Join([a, b, c, d], sep) == a + [sep] + b + [sep] + c + [sep] + d
  {
    assert [a, b, c, d][1..] == [b, c, d];
    assert [b, c, d][1..] == [c, d];
    assert [c, d][1..] == [d];
    assert Join([c, d], sep) == c + [sep] + d;
    assert Join([b, c, d], sep) == b + [sep] + (c + [sep] + d);
    assert Join([a, b, c, d], sep) == a + [sep] + (b + [sep] + (c + [sep] + d));
  }

  lemma Join6<T>(a: seq<T>, b: seq<T>, c: seq<T>, d: seq<T>, e: seq<T>, f: seq<T>, sep: T)
    ensures Join([a, b, c, d, e, f], sep) == a + [sep] + b + [sep] + c + [sep] + d + [sep] + e + [sep] + f
  {
    assert [a, b, c, d, e, f][1..] == [b, c, d, e, f];
    assert [b, c, d, e, f][1..] == [c, d, e, f];
    Join4(c, d, e, f, sep);
    assert Join([b, c, d, e, f], sep) == b + [sep] + Join([c, d, e, f], sep);
    assert Join([a, b, c, d, e, f], sep) == a + [sep] + Join([b, c, d, e, f], sep);
  }

  /** The first part of a split is the prefix before the first separator, or everything. */
  lemma SplitHead<T>(s: seq<T>, sep: T)
    ensures Split(s, sep)[0] <= s
    ensures sep !in Split(s, sep)[0]
    ensures Split(s, sep)[0] == s || s[|Split(s, sep)[0]|] == sep
  {
    var parts := Split(s, sep);
    if |parts| > 1 {
      assert s == parts[0] + [sep] + Join(parts[1..], sep);
      assert s[..|parts[0]|] == parts[0];
    }
  }
}

=== FILE: text.dfy ===
/** Number formatting and the hexadecimal byte codec: the `%02x`, `%04x` and
    `%u` conversions, and Python 2's `encode('hex')` / `decode('hex')`. */
module Text {
  import opened Wrappers
  import opened Seqs

  type byte = x: int | 0 <= x < 256

  function Pow(b: nat, e: nat): nat
  {
    if e == 0 then 1 else b * Pow(b, e - 1)
  }

  /** The lower-case digit for d, as printf and `encode('hex')` write it. */
  function DigitChar(d: nat): char
    requires d < 16
  {
    if d < 10 then ('0' as int + d) as char else ('a' as int + d - 10) as char
  }

  /** The value of a hexadecimal digit of either case; 16 for any other character. */
  function DigitVal(c: char): nat
  {
    if '0' <= c <= '9' then c as int - '0' as int
    else if 'a' <= c <= 'f' then c as int - 'a' as int + 10
    else if 'A' <= c <= 'F' then c as int - 'A' as int + 10
    else 16
  }

  predicate IsDigits(s: string, base: nat)
  {
    forall i | 0 <= i < |s| :: DigitVal(s[i]) < base
  }

  /** The number a digit string denotes in the given base, most significant digit first. */
  function Value(s: string, base: nat): nat
    decreases |s|
  {
    if s == [] then 0 else Value(s[..|s| - 1], base) * base + DigitVal(s[|s| - 1])
  }

  /** The shortest digit string for n: "0" for zero, no leading zero otherwise. */
  function ToBase(n: nat, base: nat): string
    requires 2 <= base <= 16
    decreases n
  {
    if n < base then [DigitChar(n)] else ToBase(n / base, base) + [DigitChar(n % base)]
  }

  function Pad(s: string, width: nat): string
  {
    if |s| >= width then s else seq(width - |s|, _ => '0') + s
  }

  /** `"%0<width>x" % n`: lower-case hexadecimal, zero-padded to at least width digits;
      a wider number keeps all of its digits. */
  function FormatHex(n: nat, width: nat): string
  {
    Pad(ToBase(n, 16), width)
  }

  /** `"%u" % n` for a non-negative n. */
  function FormatDec(n: nat): string
  {
    ToBase(n, 10)
  }

  lemma ValueSnoc(s: string, c: char, base: nat)
    ensures Value(s + [c], base) == Value(s, base) * base + DigitVal(c)
  {
    assert (s + [c])[..|s|] == s;
  }

  /** Reading back what ToBase wrote gives the number again. */
  lemma {:induction false} ToBaseValue(n: nat, base: nat)
    requires 2 <= base <= 16
    ensures |ToBase(n, base)| >= 1
    ensures IsDigits(ToBase(n, base), base)
    ensures Value(ToBase(n, base), base) == n
    decreases n
  {
    if n < base {
      DigitRoundTrip(n);
      assert Value([DigitChar(n)], base) == Value([], base) * base + n;
    } else {
      var q, d := n / base, n % base;
      DivMod(n, base);
      ToBaseValue(q, base);
      DigitRoundTrip(d);
      var front := ToBase(q, base);
      assert ToBase(n, base) == front + [DigitChar(d)];
      ValueSnoc(front, DigitChar(d), base);
      assert forall i | 0 <= i < |front| :: (front + [DigitChar(d)])[i] == front[i];
    }
  }

  lemma DigitRoundTrip(d: nat)
    requires d < 16
    ensures DigitVal(DigitChar(d)) == d
  {
  }

  lemma DivMod(n: nat, base: nat)
    requires base >= 2
    ensures n == (n / base) * base + n % base
    ensures n % base < base
    ensures n >= base ==> 1 <= n / base < n
  {
  }

  lemma {:induction false} ValueZeros(z: string, base: nat)
    requires forall i | 0 <= i < |z| :: z[i] == '0'
    ensures Value(z, base) == 0
    decreases |z|
  {
    if z != [] {
      ValueZeros(z[..|z| - 1], base);
    }
  }

  /** Leading zeros do not change the value. */
  lemma {:induction false} ValuePadded(z: string, s: string, base: nat)
    requires forall i | 0 <= i < |z| :: z[i] == '0'
    ensures Value(z + s, base) == Value(s, base)
    decreases |s|
  {
    if s == [] {
      assert z + s == z;
      ValueZeros(z, base);
    } else {
      var init := s[..|s| - 1];
      assert z + s == (z + init) + [s[|s| - 1]];
      ValuePadded(z, init, base);
      ValueSnoc(z + init, s[|s| - 1], base);
      ValueSnoc(init, s[|s| - 1], base);
      assert init + [s[|s| - 1]] == s;
    }
  }

  /** `%0wx` writes only hexadecimal digits, at least w of them (and at least one),
      and they read back as n. */
  lemma FormatHexValue(n: nat, width: nat)
    ensures |FormatHex(n, width)| >= width
    ensures |FormatHex(n, width)| >= 1
    ensures IsDigits(FormatHex(n, width), 16)
    ensures Value(FormatHex(n, width), 16) == n
  {
    var s := ToBase(n, 16);
    ToBaseValue(n, 16);
    if |s| < width {
      var z := seq(width - |s|, _ => '0');
      ValuePadded(z, s, 16);
      assert FormatHex(n, width) == z + s;
    }
  }

  lemma FormatDecValue(n: nat)
    ensures |FormatDec(n)| >= 1
    ensures IsDigits(FormatDec(n), 10)
    ensures Value(FormatDec(n), 10) == n
  {
    ToBaseValue(n, 10);
  }

  /** Distinct numbers print differently under `%0wx`. */
  lemma FormatHexInjective(a: nat, b: nat, width: nat)
    requires FormatHex(a, width) == FormatHex(b, width)
    ensures a == b
  {
    FormatHexValue(a, width);
    FormatHexValue(b, width);
  }

  /** Distinct numbers print differently under `%u`. */
  lemma FormatDecInjective(a: nat, b: nat)
    requires FormatDec(a) == FormatDec(b)
    ensures a == b
  {
    FormatDecValue(a);
    FormatDecValue(b);
  }

  /** A non-zero number has no leading zero digit, which the dotted-quad rules require. */
  lemma {:induction false} ToBaseNoLeadingZero(n: nat, base: nat)
    requires 2 <= base <= 16
    requires n > 0
    ensures ToBase(n, base)[0] != '0'
    decreases n
  {
    if n >= base {
      DivMod(n, base);
      ToBaseNoLeadingZero(n / base, base);
      var front := ToBase(n / base, base);
      assert ToBase(n, base) == front + [DigitChar(n % base)];
      assert ToBase(n, base)[0] == front[0];
    }
  }

  lemma MulMonotone(a: nat, c: nat, b: nat)
    requires a <= c
    ensures a * b <= c * b
  {
  }

  lemma DivBelow(n: nat, b: nat, p: nat)
    requires b >= 1
    ensures n / b < p <==> n < b * p
  {
    var q, r := n / b, n % b;
    assert n == q * b + r && r < b;
    if q < p {
      MulMonotone(q + 1, p, b);
    } else {
      MulMonotone(p, q, b);
    }
  }

  /** ToBase needs at most w digits exactly when n is below base^w. */
  lemma {:induction false} ToBaseLength(n: nat, base: nat, w: nat)
    requires 2 <= base <= 16
    requires w >= 1
    ensures |ToBase(n, base)| <= w <==> n < Pow(base, w)
    decreases n
  {
    PowAtLeastBase(base, w);
    if n >= base {
      DivMod(n, base);
      var front := ToBase(n / base, base);
      assert ToBase(n, base) == front + [DigitChar(n % base)];
      assert |ToBase(n, base)| == |front| + 1;
      if w == 1 {
        assert Pow(base, 1) == base;
        assert |front| >= 1 by {
          ToBaseValue(n / base, base);
        }
      } else {
        assert Pow(base, w) == base * Pow(base, w - 1);
        ToBaseLength(n / base, base, w - 1);
        DivBelow(n, base, Pow(base, w - 1));
      }
    } else {
      assert ToBase(n, base) == [DigitChar(n)];
    }
  }

  lemma {:induction false} PowAtLeastBase(base: nat, w: nat)
    requires base >= 2 && w >= 1
    ensures Pow(base, w) >= base
    decreases w
  {
    if w > 1 {
      PowAtLeastBase(base, w - 1);
      assert Pow(base, w) == base * Pow(base, w - 1);
    }
  }

  /** Below 16^w, `%0wx` prints exactly w digits. */
  lemma FormatHexExactWidth(n: nat, width: nat)
    requires width >= 1
    requires n < Pow(16, width)
    ensures |FormatHex(n, width)| == width
  {
    ToBaseLength(n, 16, width);
  }

  /** From 16^w up, `%0wx` prints more than w digits. */
  lemma FormatHexOverflows(n: nat, width: nat)
    requires width >= 1
    requires n >= Pow(16, width)
    ensures |FormatHex(n, width)| > width
  {
    ToBaseLength(n, 16, width);
  }

  lemma DigitStringsExclude(s: string, base: nat, c: char)
    requires base <= 16
    requires IsDigits(s, base)
    requires DigitVal(c) >= base
    ensures c !in s
  {
  }

  /** `%02x` of one byte: its two hexadecimal digits. */
  function HexByte(x: byte): (s: string)
    ensures |s| == 2
  {
    [DigitChar(x / 16), DigitChar(x % 16)]
  }

  lemma FormatHexByte(x: byte)
    ensures FormatHex(x, 2) == HexByte(x)
  {
    if x < 16 {
      assert ToBase(x, 16) == [DigitChar(x)];
    } else {
      assert ToBase(x / 16, 16) == [DigitChar(x / 16)];
    }
  }

  /** `bytes.encode('hex')`: two lower-case digits per byte. */
  function HexEncode(b: seq<byte>): (s: string)
    ensures |s| == 2 * |b|
  {
    if b == [] then [] else HexByte(b[0]) + HexEncode(b[1..])
  }

  /** `str.decode('hex')`: an odd length or a non-hexadecimal character is an error
      (either case of letter is accepted). */
  function HexDecode(s: string): Option<seq<byte>>
    decreases |s|
  {
    if |s| % 2 == 1 then None
    else if s == [] then Some([])
    else if DigitVal(s[0]) < 16 && DigitVal(s[1]) < 16 then
      match HexDecode(s[2..])
      case None => None
      case Some(rest) => Some([DigitVal(s[0]) * 16 + DigitVal(s[1])] + rest)
    else None
  }

  lemma {:induction false} HexEncodeAppend(a: seq<byte>, b: seq<byte>)
    ensures HexEncode(a + b) == HexEncode(a) + HexEncode(b)
    decreases |a|
  {
    if a == [] {
      assert a + b == b;
    } else {
      assert (a + b)[1..] == a[1..] + b;
      HexEncodeAppend(a[1..], b);
    }
  }

  /** Hex-encoding a prefix of the bytes is a prefix of the hex encoding. */
  lemma HexEncodePrefix(b: seq<byte>, m: nat)
    requires m <= |b|
    ensures HexEncode(b)[..2 * m] == HexEncode(b[..m])
  {
    HexEncodeAppend(b[..m], b[m..]);
    assert b[..m] + b[m..] == b;
  }

  /** The two digits of a byte read back as that byte. */
  lemma HexByteDecodes(x: byte)
    ensures DigitVal(HexByte(x)[0]) < 16 && DigitVal(HexByte(x)[1]) < 16
    ensures DigitVal(HexByte(x)[0]) * 16 + DigitVal(HexByte(x)[1]) == x
  {
    DigitRoundTrip(x / 16);
    DigitRoundTrip(x % 16);
  }

  /** Decoding a leading digit pair, then the rest. */
  lemma HexDecodeCons(pair: string, rest: string, tail: seq<byte>)
    requires |pair| == 2 && DigitVal(pair[0]) < 16 && DigitVal(pair[1]) < 16
    requires HexDecode(rest) == Some(tail)
    ensures HexDecode(pair + rest) == Some([DigitVal(pair[0]) * 16 + DigitVal(pair[1])] + tail)
  {
    var s := pair + rest;
    HexDecodeLength(rest);
    assert |s| == 2 * (|tail| + 1);
    assert |s| % 2 == 0;
    assert s[0] == pair[0] && s[1] == pair[1];
    assert s[2..] == rest;
  }

  /** decode('hex') undoes encode('hex'). */
  lemma {:induction false} HexDecodeEncode(b: seq<byte>)
    ensures HexDecode(HexEncode(b)) == Some(b)
    decreases |b|
  {
    if b != [] {
      HexByteDecodes(b[0]);
      HexDecodeEncode(b[1..]);
      HexDecodeCons(HexByte(b[0]), HexEncode(b[1..]), b[1..]);
      assert [b[0]] + b[1..] == b;
    }
  }

  /** A string decode('hex') accepts has two characters per decoded byte. */
  lemma {:induction false} HexDecodeLength(s: string)
    requires HexDecode(s).Some?
    ensures |s| == 2 * |HexDecode(s).value|
    decreases |s|
  {
    if s != [] {
      HexDecodeLength(s[2..]);
    }
  }
}

=== FILE: vapi.dfy ===
/** The records exchanged with the control-plane client: one entry of the
    interface dump it returns, and the requests the configuration methods send.
    The transport itself is not modelled; a request is recorded, not performed. */
module Vapi {
  import opened Text

  /** One entry of `sw_interface_dump()`: the interface index, the NUL-padded name and
      the raw hardware address. */
  datatype DumpEntry = DumpEntry(swIfIndex: nat, interfaceName: seq<byte>, l2Address: seq<byte>)

  /** One control-plane request, with the arguments the interface code passes. */
  datatype Call =
    | SwInterfaceAddDelAddress(swIfIndex: nat, address: seq<byte>, addressLength: nat, isIpv6: bool)
    | IpNeighborAddDel(swIfIndex: nat, macAddress: seq<byte>, ipAddress: seq<byte>)
    | SwInterfaceSetTable(swIfIndex: nat, isIpv6: bool, tableId: nat)
    | SwInterfaceRaSuppress(swIfIndex: nat)
    | SwInterfaceSetFlags(swIfIndex: nat, adminUp: bool)
    | SwInterfaceEnableDisableMpls(swIfIndex: nat)
}

=== FILE: wrappers.dfy ===
/** Option and Result: the failure-carrying values used for the exceptions
    the interface code raises. */
module Wrappers {

  datatype Option<+T> = None | Some(value: T)

  datatype Result<+R, +E> = Success(value: R) | Failure(error: E)
}
